=== FILE: README.md ===
# Football shirt shop: cart, checkout, payment and addresses in Dafny

A model of the shopping core of a Django football-shirt shop, with proofs about it. The model covers:

- the session cart (`cart/cart.py`): add, remove, length, enumeration with pruning of vanished products, total price and clear;
- orders and their items (`orders/models.py`): total cost and the payment-dashboard link;
- `order_create` (`orders/views.py`): turning the cart into an order;
- `payment_process` (`payment/views.py`): building the provider's checkout request;
- the provider webhook (`payment/webhook.py`): marking orders paid, once;
- the address book views (`addresses/views.py`): at most one default address per user;
- the catalog listing and detail filters (`shop/views.py`);
- the contact form with its honeypot field (`shop/forms.py`).

Money is exact integer pence. A price stored in the cart keeps the text form `str(price)` and is read back when the cart is enumerated; the round trip is proved. The database is a `Db.Store` object holding the orders, their items in table order, and a log of the notifications sent ("order created", "payment completed").

Some things are inputs rather than modelled behaviour:

- the payment provider's answers: the checkout session it creates, or the error it raises;
- the signature check of an incoming event;
- whether a submitted order, address or e-mail is valid;
- whether the visitor is signed in.

| file | module | models |
|---|---|---|
| base.dfy | Base | Option, id types, Python truthiness, a filter with its lemmas |
| money.dfy | Money | `str(int)`, `int(str)`, two-place decimals as text, `int(Decimal * 100)` |
| shop.dfy | Shop | categories, teams, products; `product_list`, popular teams, `product_detail` |
| cart.dfy | CartStore | the session, the shared cart dictionary, the `Cart` class |
| orders.dfy | Orders | `Order`, `OrderItem`, `get_total_cost`, `get_stripe_url` |
| db.dfy | Db | the order tables and the notification log |
| checkout.dfy | Checkout | `order_create` |
| payment.dfy | Payment | `payment_process` |
| webhook.dfy | Webhook | `stripe_webhook`, `_finalize_order` |
| addresses.dfy | Addresses | `address_create`, `address_update`, `address_delete` |
| contact.dfy | Contact | `ContactForm` |

## Model

| member | source | states |
|---|---|---|
| Money.NatToString | payment/views.py:51-52 | `str(n)` is a non-empty run of digits with no leading zero except "0" itself |
| Money.ParseInt | payment/webhook.py:93 | the model's reading of `int(text)`: it accepts exactly an optional sign followed by at least one ASCII digit (a narrower set than Python's, see Left out), and an unsigned text gives its digits' value |
| Money.ParseIntOfNatToString | payment/views.py:51-52 | reading back the text of an order id gives the id: `int(str(n)) == n` |
| Money.ParsePence | cart/cart.py:40 | a price text is accepted only as digits, optionally followed by a point and one or two digits |
| Money.FormatPence | cart/cart.py:52 | `str(price)` of a two-place price; `FormatPenceRoundTrip` proves it reads back as the same pence |
| Money.FormatPenceRoundTrip | cart/cart.py:52 | the price snapshot stored as `str(price)` reads back as the same amount in pence |
| Money.TruncDiv | payment/views.py:33 | `int()` of a quotient truncates toward zero, for negative values as well |
| Money.Hundredths | payment/views.py:33 | `int(Decimal(price) * 100)`; `HundredthsOfPence` and `HundredthsTruncates` state its value on two-place and longer prices |
| Money.HundredthsOfPence | payment/views.py:33 | `int(Decimal(price) * 100)` of a two-place price is exactly its pence, e.g. 12.34 gives 1234 |
| Money.HundredthsTruncates | payment/views.py:33 | more than two places are cut toward zero: 1.999 gives 199 and -1.999 gives -199 |
| Shop.SortByName | shop/views.py:38 | `order_by("name")` yields a name-sorted permutation of the teams |
| Shop.EligibleTeams | shop/views.py:37 | exactly the teams having an available product, each at most as often as in the table |
| Shop.PopularTeams | shop/views.py:36-40 | the popular teams are at most 8, sorted by name, and drawn from the team table |
| Shop.PopularTeamsChosen | shop/views.py:36-40 | every popular team has an available product; an eligible team is left out only when 8 teams sorting no later fill the list |
| Shop.CategoryBySlug | shop/views.py:28 | a category is found exactly when one has the slug, and it has that slug |
| Shop.TeamBySlug | shop/views.py:32 | a team is found exactly when one has the slug, and it has that slug |
| Shop.ListedProducts | shop/views.py:21-33 | a product is listed iff it is available and matches the chosen category and the chosen team (both when both are given) |
| Shop.ProductList | shop/views.py:12-49 | 404 exactly when a given slug is unknown; otherwise the chosen category/team carry the slugs and the listing and popular teams are as above |
| Shop.ProductDetail | shop/views.py:52-53 | a product is shown iff one matches id, slug and is available, and it is that one |
| CartStore.Live | cart/cart.py:26-31 | the kept keys are, in order, exactly the cart keys whose product still exists |
| CartStore.Pruned | cart/cart.py:31-35 | the stored entries after pruning are exactly the entries whose product still exists, unchanged |
| CartStore.WellFormedPrune | cart/cart.py:31-36 | pruning keeps the cart well formed: distinct keys in order, matching the entries, every price readable |
| CartStore.WellFormedRemove | cart/cart.py:63-68 | deleting an entry keeps the cart well formed |
| CartStore.QuantitySumUpdate | cart/cart.py:53-56 | setting one entry's quantity changes `len(cart)` by exactly the difference |
| CartStore.QuantitySumRemove | cart/cart.py:63-68 | deleting an entry lowers `len(cart)` by exactly its quantity |
| CartStore.QuantitySum | cart/cart.py:44-46 | the sum of the stored quantities; `QuantitySumUpdate`, `QuantitySumRemove` and `AddCount` state exactly how it moves under a quantity change, a deletion and `add` |
| CartStore.AfterAdd | cart/cart.py:48-57 | the stored cart after `add`; `AddCount` states its content: well formed, the product's quantity set or increased, an existing price kept or the current one snapshotted, every other entry unchanged |
| CartStore.AddEntry | cart/cart.py:50-56 | the dictionary steps of `add` (create a missing entry at the end, then set or increase the quantity) end exactly in `AfterAdd` |
| CartStore.AddCount | cart/cart.py:48-57 | after `add` the cart is well formed; the product's quantity is set or increased; a new entry snapshots `str(price)` at the end; an existing entry keeps its price; nothing else changes; `len` moves by the quantity difference |
| CartStore.Enumerate | cart/cart.py:38-42 | one yielded line per live key, in insertion order |
| CartStore.SumTotals | cart/cart.py:77-80 | the sum of the line totals from 0; `AddTotals` proves the loop computes it and `NewItemsCost` that an order made from the lines costs the same |
| CartStore.EnumerateAt | cart/cart.py:38-42 | line i carries the live product, the stored quantity, the stored price read back, and `price * quantity` as its total |
| CartStore.Stale | cart/cart.py:31 | a key is stale iff it is a cart key whose product is missing from the catalog; the order is the cart's (through `StaleKeys`) |
| CartStore.StaleKeys | cart/cart.py:31 | the loop collects exactly `Stale` of the cart keys: the keys whose product is gone, in the cart's order, each once |
| CartStore.Normalize | cart/cart.py:39-42 | the loop yields exactly the enumeration of the copied entries |
| CartStore.AddTotals | cart/cart.py:77-80 | the loop's running total from 0 is the sum of the line totals |
| CartStore.Cart.Len | cart/cart.py:44-46 | `len(cart)` is `QuantitySum` of the instance's dictionary; `Cart.Add` and `Cart.Remove` state how it moves |
| CartStore.Cart.constructor | cart/cart.py:8-14 | a missing or empty session cart is replaced by a new empty one and the session is marked modified; otherwise the instance shares the stored dictionary |
| CartStore.Cart.Save | cart/cart.py:59-61 | marks the session modified and changes nothing else |
| CartStore.Cart.Add | cart/cart.py:48-57 | the shared dictionary becomes `AfterAdd` of the old one; `len` changes by the quantity difference; the session is marked modified |
| CartStore.Cart.Remove | cart/cart.py:63-68 | a present product's entry is deleted, `len` drops by its quantity and the session is marked modified; an absent product changes nothing |
| CartStore.Cart.Items | cart/cart.py:16-42 | stale entries are removed from the stored cart; the session is marked modified iff there were any; the items are the enumeration of the old cart |
| CartStore.Cart.GetTotalPrice | cart/cart.py:75-80 | the total is the sum of the line totals of one enumeration, which prunes as enumeration does |
| CartStore.Cart.ClearAsWritten | cart/cart.py:70-73 | the session key is removed and the session marked modified, but the instance keeps its dictionary and its length |
| CartStore.Cart.Clear | cart/cart.py:70-73 | the session key is removed, the session is marked modified, and the instance is empty (length 0) |
| CartStore.CartTestValues | cart/tests/test_cart.py:34-50 | on the stored cart: 3 items, first line P1 totalling 20.00, 25.50 in all, 20.00 after P2 is removed |
| CartStore.CartTestScenario | cart/tests/test_cart.py:30-54 | the test's sequence on a `Cart` gives 3, P1 at 20.00, 25.50 and 20.00; after the as-written `clear()` the cleared instance still counts 2 where the test expects 0, while a new `Cart` on the same session counts 0 |
| CartStore.ClearedInstanceStillCounts | cart/tests/test_cart.py:52-54 | as written, the cleared instance still counts 2 |
| CartStore.ClearedInstanceIsEmpty | cart/tests/test_cart.py:52-54 | with the corrected clear, the instance counts 0 |
| Orders.NewOrder | orders/models.py:5-21 | a new order is unpaid, with no payment reference and no owner |
| Orders.ItemsOf | orders/models.py:32-33 | `order.items.all()` holds exactly the items whose order is this one |
| Orders.GetCost | orders/models.py:78-79 | a line costs 0 iff its price or its quantity is 0 |
| Orders.TotalCost | orders/models.py:32-33 | the sum of the line costs from 0; `TotalCostAppend` and `TotalCostBounds` state that it is additive, 0 iff every line costs 0, and never below a line |
| Orders.GetTotalCost | orders/models.py:32-33 | an order none of whose items are in the table costs 0; `GetTotalCostOfNew` states that only its own items count |
| Orders.TotalCostAppend | orders/models.py:32-33 | the sum of line costs splits over concatenation |
| Orders.TotalCostBounds | orders/models.py:32-33 | the total is 0 iff every line costs 0, and no line costs more than the total |
| Orders.GetTotalCostOfNew | orders/models.py:32-33 | items of other orders do not count: a new order's total is the cost of its own items |
| Orders.TotalCostExamples | orders/tests/test_models.py:20-22 | no items cost 0; three items at 9.99 cost 29.97 |
| Orders.GetStripeUrl | orders/models.py:35-41 | the link is "" exactly when the order has no payment reference (absent or empty) |
| Orders.GetStripeUrlShape | orders/models.py:43-56 | otherwise it starts at the dashboard origin, has "/test/" right after it iff the key is a test key, and ends with "/checkouts/sessions/" and the reference for "cs_" references, "/payments/" and the reference for all others |
| Orders.GetStripeUrlPaymentIntent | orders/tests/test_models.py:24-27 | a test key and "pi_12345" link to ".../test/payments/pi_12345" |
| Orders.GetStripeUrlCheckoutSession | orders/tests/test_models.py:29-32 | a test key and "cs_98765" link to ".../test/checkouts/sessions/cs_98765" |
| Orders.GetStripeUrlLiveKey | orders/models.py:43-54 | a live key has no "/test", and an unknown prefix falls back to "/payments/" |
| Db.Store.InsertOrder | orders/views.py:33 | saving a new order stores it under a fresh id and changes nothing else |
| Db.Store.SaveOrder | orders/views.py:37-38 | updating an order replaces that row only |
| Db.Store.InsertItem | orders/views.py:42-47 | creating an item appends it to the item table and changes nothing else |
| Db.Store.Notify | orders/views.py:52-56 | a notification is appended to the log and nothing else changes |
| Checkout.NewItems | orders/views.py:41-47 | one order item per enumerated line, in order, with that line's product, snapshot price and quantity |
| Checkout.NewItemsCost | orders/views.py:41-47 | the new items cost what the cart lines total |
| Checkout.CreateItems | orders/views.py:41-47 | the loop appends exactly the new items to the item table |
| Checkout.SaveNewOrder | orders/views.py:33-38 | the order is saved under a new id, owned by the signed-in user if any, and unpaid |
| Checkout.OrderCreate | orders/views.py:16-68 | back to the cart iff the stored cart counts 0; the form re-renders iff GET or invalid, with no order written and the stored cart kept as it was (a missing or empty one is replaced by a fresh empty cart and the session marked modified); otherwise one new order and its items as above, total equal to the cart total, the cart cleared, one "order created" notification, and the session remembers the new order |
| Checkout.PlaceOrder | orders/views.py:31-64 | the valid-POST branch: one new order under the next id, exactly `NewItems` of the enumerated lines appended, total equal to the lines' `SumTotals`, one "order created" notice, the session cart key popped and the order remembered |
| Checkout.StaleCartMakesEmptyOrder | orders/views.py:26-47 | a cart whose products have all vanished still passes the emptiness check and yields an order with no items, costing 0 |
| Payment.Currency | payment/views.py:28 | the configured currency, or "gbp" when none is set |
| Payment.ToLineItem | payment/views.py:33-42 | a line item carries the price in minor units, the quantity, the currency and the product name |
| Payment.LineItems | payment/views.py:31-43 | one line item per order item, in order |
| Payment.BuildLineItems | payment/views.py:31-43 | the loop builds exactly those line items |
| Payment.PaymentProcess | payment/views.py:12-80 | no remembered order: back to order creation; an unknown order: 404; GET: the summary and no provider call; POST: exactly the request for the order's items, then a 302 Found redirect to the provider's page (never a 303, since Django's `redirect` ignores `code=303`) or the summary with the error text; nothing is written |
| Payment.RedirectStatus | payment/views.py:70 | the status of Django's `redirect` to a URL depends on `permanent` alone: 302 when not permanent, 301 when permanent, never 303 |
| Payment.PaymentProcessSeeOther | payment/views.py:12-80 | the view as evidently intended: every outcome as `PaymentProcess`, except that a created session answers 303 See Other |
| Payment.RequestFor | payment/views.py:45-53 | the arguments of `Session.create`; `RequestIdentifiesOrder` states that both references read back as the order id and line item i carries item i |
| Payment.RequestIdentifiesOrder | payment/views.py:46-53 | the request's mode is "payment", both references read back as the order id, and item i's price, quantity and currency are carried |
| Payment.LineItemExample | payment/tests/test_views.py:70-74 | an item at 12.34 twice gives 1234 minor units, quantity 2, in "gbp" |
| Webhook.LookupOrder | payment/webhook.py:92-96 | an order is found iff the text reads as an integer naming a stored order; a non-number is malformed |
| Webhook.OrderIdText | payment/webhook.py:80-110 | the text naming the order exists only for a paid one-time checkout session (client reference, else metadata) or a succeeded payment intent (metadata) |
| Webhook.PaymentReference | payment/webhook.py:98-115 | the reference stored on finalizing: payment intent else session id for a checkout session, the intent id for a payment intent; `Dispatch` states it is the one used |
| Webhook.Dispatch | payment/webhook.py:56-123 | 400 iff the signature header is missing or empty or the event fails verification; a verified event with no order id text (not a paid one-time checkout session with a client reference or metadata id, nor a succeeded payment intent with a metadata id) gets 200; otherwise a server error iff the text is not an integer, finalizing with the intent-or-session reference (checkout) or the intent id (payment intent) iff it names a stored order, and 200 for any other integer |
| Webhook.IgnoredEvents | payment/webhook.py:80-121 | other modes, unpaid sessions and other event types are acknowledged with 200 |
| Webhook.UnknownOrderAcknowledged | payment/webhook.py:92-96 | a paid session naming a missing order is acknowledged with 200 |
| Webhook.MissingSignatureRejected | payment/tests/test_webhook_invalid_signature.py:5-8 | a missing or empty signature header gives 400 |
| Webhook.FinalizeValue | payment/webhook.py:16-44 | the order ends paid; the reference is taken iff it is truthy; "paid" is saved iff it was unpaid; "stripe_id" is saved iff the reference is truthy and different; nothing is saved iff nothing changed; the notification fires iff it was unpaid |
| Webhook.FinalizeIdempotent | payment/webhook.py:16-44 | finalizing again with the same reference saves nothing and sends no notification |
| Webhook.NotifiedAtMostOnce | payment/webhook.py:38-44 | however often the webhook fires, "payment completed" is sent once for an unpaid order and never for a paid one |
| Webhook.FinalizeOrder | payment/webhook.py:16-44 | the stored order becomes the finalized value, the saved fields are returned, and a notification is logged iff it was unpaid |
| Webhook.StripeWebhook | payment/webhook.py:47-123 | the status and the store change are those of the dispatch: 400 and 200 change nothing; finalizing changes only that order and the log |
| Webhook.CheckoutReferenceRoundTrip | payment/webhook.py:80-100 | a paid checkout session carrying the reference from `payment_process` finalizes exactly the order it was created for |
| Webhook.IntentReferenceRoundTrip | payment/webhook.py:105-115 | a succeeded payment intent carrying the metadata order id from `payment_process` finalizes exactly that order, with the intent's id as reference |
| Addresses.ClearDefaults | addresses/views.py:21 | none of the user's addresses (but the excluded one) remains default; other users' addresses and all names are untouched |
| Addresses.CreatedRows | addresses/views.py:18-22 | the new address is owned by the requester; a new default is the user's only default; a non-default create changes no other row; at most one default is kept |
| Addresses.UpdatedRows | addresses/views.py:35-38 | the edited address keeps its owner; as a default it is the user's only default; other users' rows are unchanged; at most one default is kept |
| Addresses.AddressBook.Create | addresses/views.py:13-26 | sign-in required; GET or an invalid form writes nothing; a valid POST writes `CreatedRows`, or, on a name clash, fails with the defaults already cleared |
| Addresses.AddressBook.Update | addresses/views.py:29-42 | someone else's or a missing address is a 404 with no change; otherwise as for create, with `UpdatedRows` |
| Addresses.AddressBook.Delete | addresses/views.py:45-51 | only the owner's address resolves; POST removes exactly it; GET shows the confirmation and changes nothing |
| Addresses.AddressBook.CreateChecked | addresses/views.py:13-26 | as create, but a name clash re-renders the form and writes nothing |
| Addresses.AddressBook.UpdateChecked | addresses/views.py:29-42 | as update, but a name clash re-renders the form and writes nothing |
| Addresses.DuplicateDefaultCreate | addresses/models.py:14-16 | a second default "Home" for the same user fails, and the user who had a default address has none left |
| Addresses.DuplicateDefaultCreateChecked | addresses/models.py:14-16 | with the clash checked first, the form re-renders and the user keeps their default |
| Addresses.DeleteKeepsAtMostOneDefault | addresses/views.py:48-50 | deleting keeps at most one default per user |
| Contact.Strip | shop/forms.py:5-10 | the cleaned text has no surrounding whitespace, is no longer than the input, and is empty iff the input is all whitespace |
| Contact.StripIsInfix | shop/forms.py:5-10 | the cleaned text is the input minus a whitespace prefix and a whitespace suffix |
| Contact.StripIdempotent | shop/forms.py:5-10 | cleaning twice is cleaning once |
| Contact.FieldValue | shop/forms.py:5-10 | an absent field is "", a present one is stripped |
| Contact.NameErrors | shop/forms.py:5 | the name is accepted iff it has 1 to 100 characters; empty is "required", longer is "too long" |
| Contact.EmailErrors | shop/forms.py:6 | the e-mail is accepted iff it is non-empty and a valid address |
| Contact.MessageErrors | shop/forms.py:7 | the message is accepted iff non-empty |
| Contact.CleanWebsite | shop/forms.py:12-16 | a non-empty website is rejected with "Invalid submission."; an empty one is returned unchanged |
| Contact.FormErrors | shop/forms.py:4-16 | no errors iff every field passes; the honeypot error is present iff the website is non-empty |
| Contact.CleanContact | shop/forms.py:4-16 | the form is accepted iff name, e-mail and message pass and the website is empty (a missing website counts as empty); then the cleaned data are the stripped values; otherwise errors are reported, with the honeypot error iff the website was filled in |

## Left out

- CartStore.Cart.Add: quantities are natural numbers. `cart.py` does not check the sign, and the form that bounds them (cart/forms.py) is not part of this model.
- Aliasing in cart enumeration is not modelled. `__iter__` writes the product object and a `Decimal` price into dictionaries shared with the session (cart/cart.py:22, 28, 40). The model yields fresh values and leaves the stored text price untouched.
- Rendering is reduced to outcome values: templates, messages and status pages. The order-form template enumerates the cart, which can prune it; that render-time side effect is not modelled.
- Money.ParseInt: Python's `int()` also accepts surrounding whitespace, underscores between digits and non-ASCII digits; the model accepts only an optional sign and ASCII digits.
- Webhook.LookupOrder: Python's `int()` also accepts surrounding whitespace, underscores between digits and non-ASCII digits. The model accepts only an optional sign and ASCII digits and treats anything else as the uncaught `ValueError` (a server error).
- Webhook.Dispatch: `construct_event` and its signature scheme are an input (verified event, bad payload or bad signature). No cryptography is modelled.
- Payment.PaymentProcess, Orders.GetTotalCost: an order item holds the product as it was when the order was created, not a live foreign key. A product renamed before payment is sent to the provider under its old name here and under its new name by the source (payment/views.py:39). Deleting a product cascades to its order items (orders/models.py:64-68), which shrinks the total and the line items; the model keeps them.
- Payment.PaymentProcess: `Session.create` is an input. So is what it answers: a URL, or an exception's text. The success and cancel URLs are not modelled.
- Email and task queues are not modelled. `order_created` and `payment_completed` (sync or via `.delay`) become entries in `Db.Store.notices`.
- The order form (orders/forms.py) is not part of this model. As the repository stands it does not parse: its field declarations sit inside the `fields = [...]` list (orders/forms.py:9-17), so orders/views.py, which imports it, cannot be loaded and `order_create` never runs. Checkout.OrderCreate and Checkout.PlaceOrder model the view as if a working form were in place. Whether a submitted order form is valid, and the customer it yields, is an input. The same holds for the address form's own field validation.
- Contact.EmailErrors: whether a text is a valid e-mail address is an input. Django's e-mail validator is not modelled.
- Contact.FieldValue: Django's null-character check on text fields is not modelled.
- Payment.RedirectStatus: Django's `redirect` and `resolve_url` are not part of this model. The function states only the status they give a URL that is not a view name: 301 or 302 by `permanent`, with every other keyword ignored.
- Concurrency is not modelled: every view runs alone. `_finalize_order` is a read followed by a write with no lock, and `order_create` runs without a transaction. The model claims no atomicity.
- The repository's payment tests expect `payment_process` to save the provider reference and `payment_completed` to mark orders paid. The code does neither (payment/views.py:55-70, 83-84), and the model follows the code.
- Table order is the row order of the model's sequences. The default ordering by creation time and address ordering by (`-is_default`, name) are not modelled.
- Shop.CategoryBySlug, Shop.TeamBySlug: slugs are taken to be unique (shop/models.py is not part of this model). With duplicate slugs `get_object_or_404` raises `MultipleObjectsReturned`; the model returns the first match instead.
- Shop.SortByName: names compare by code point. Database collation is not modelled.
- The `created`/`updated` timestamps, the admin pages, the PDF invoice, the CSV export, `payment_completed`/`payment_canceled` rendering, the accounts views and the catalog's own models are not modelled.

## Findings

| source | as written | input that shows it | evidently intended | confidence | as-written member | corrected member |
|---|---|---|---|---|---|---|
| cart/cart.py:70-73 | `clear()` removes the session key but the instance keeps its dictionary, so `len(cart)` is unchanged | cart/tests/test_cart.py:30-54: P1 twice, P2 once, remove P2, clear; `len(cart)` is 2, the test expects 0 | clearing empties the instance too | high; not executed | CartStore.ClearedInstanceStillCounts | CartStore.ClearedInstanceIsEmpty |
| addresses/views.py:17-22 | the address form does not check the (user, name) uniqueness of addresses/models.py:16, because user is not a form field; the defaults are cleared, then the save fails with a server error and the cleared flags stay cleared | user 7 has a default "Home" and submits another default "Home": server error, and user 7 has no default address left | a name clash re-renders the form and writes nothing | medium; not executed | Addresses.DuplicateDefaultCreate | Addresses.DuplicateDefaultCreateChecked |
| payment/views.py:70 | `redirect(session.url, code=303)`: Django's `redirect` has no `code` parameter, the keyword only reaches URL reversal, which falls back to the URL, and the response is a plain 302 Found | any POST for a stored order whose checkout session is created: the status is 302, not 303 | the redirect to the provider answers 303 See Other | high; not executed | Payment.PaymentProcess | Payment.PaymentProcessSeeOther |

=== FILE: addresses.dfy ===
/** The saved addresses of addresses/views.py over the table of
    addresses/models.py.

    Every view requires a signed-in user. Creating or updating an address
    marked default first clears the default flag on the user's other
    addresses, so a user keeps at most one default. Update and delete only
    resolve the requester's own addresses; any other key is a 404. Deleting
    happens on POST only.

    The table is unique on (user, name), but the form does not check that
    pair (the user is not a form field), so a clash is only met when the row
    is written: the request fails with a server error, and the default flags
    cleared just before stay cleared. Whether the submitted form is otherwise
    valid is an input. */
module Addresses {
  import opened Base

  datatype Address = Address(
    user: UserId,
    name: string,
    line1: string,
    line2: string,
    city: string,
    postalCode: string,
    country: string,
    isDefault: bool)

  /** The fields of the address form. */
  datatype AddressData = AddressData(
    name: string,
    line1: string,
    line2: string,
    city: string,
    postalCode: string,
    country: string,
    isDefault: bool)

  datatype FormResult = Invalid | Valid(data: AddressData)

  datatype Outcome =
    | RedirectToLogin    // not signed in
    | RedirectToList     // redirect("addresses:list")
    | RenderForm         // the form page, with or without errors
    | RenderConfirm      // the delete confirmation page
    | NotFound           // 404
    | ServerError        // the (user, name) constraint refused the write

  type Rows = map<AddressId, Address>

  /** The address a valid form makes for `user`. */
  function FromForm(user: UserId, d: AddressData): Address
  {
    Address(user, d.name, d.line1, d.line2, d.city, d.postalCode, d.country, d.isDefault)
  }

  /** An existing address with the form's values; the owner stays. */
  function Edited(a: Address, d: AddressData): Address
  {
    FromForm(a.user, d)
  }

  /** The user has at most one default address. */
  ghost predicate AtMostOneDefault(rows: Rows, user: UserId)
  {
    forall a, b ::
      a in rows && b in rows && rows[a].user == user && rows[b].user == user && rows[a].isDefault && rows[b].isDefault
      ==> a == b
  }

  /** Another address of `user` (not `except`) already has this name. */
  predicate NameTaken(rows: Rows, user: UserId, name: string, except: Option<AddressId>)
  {
    exists k :: k in rows && Some(k) != except && rows[k].user == user && rows[k].name == name
  }

  /** `user.addresses[.exclude(pk=except)].update(is_default=False)`: none of
      those addresses is a default afterwards; nothing else changes. */
  function ClearDefaults(rows: Rows, user: UserId, except: Option<AddressId>): (r: Rows)
    ensures r.Keys == rows.Keys
    ensures forall k :: k in r && r[k].user == user && Some(k) != except ==> !r[k].isDefault
    ensures forall k :: k in r ==> r[k].user == rows[k].user && r[k].name == rows[k].name
    ensures forall k :: k in r && (rows[k].user != user || Some(k) == except) ==> r[k] == rows[k]
    ensures forall k :: k in r && !rows[k].isDefault ==> r[k] == rows[k]
  {
    map k | k in rows :: if rows[k].user == user && Some(k) != except then rows[k].(isDefault := false) else rows[k]
  }

  /** The table after a create that succeeds. */
  function CreatedRows(rows: Rows, id: AddressId, user: UserId, d: AddressData): (r: Rows)
    requires id !in rows
    ensures id in r && r[id] == FromForm(user, d) && r.Keys == rows.Keys + {id}
    ensures forall k :: k in rows && rows[k].user != user ==> r[k] == rows[k]
    ensures !d.isDefault ==> forall k :: k in rows ==> r[k] == rows[k]
    ensures d.isDefault ==> forall k :: k in r && r[k].user == user && r[k].isDefault ==> k == id
    ensures AtMostOneDefault(rows, user) ==> AtMostOneDefault(r, user)
  {
    var cleared := if d.isDefault then ClearDefaults(rows, user, None) else rows;
    cleared[id := FromForm(user, d)]
  }

  /** The table after an update of `pk` that succeeds. */
  function UpdatedRows(rows: Rows, pk: AddressId, d: AddressData): (r: Rows)
    requires pk in rows
    ensures r.Keys == rows.Keys && r[pk] == Edited(rows[pk], d)
    ensures forall k :: k in rows && rows[k].user != rows[pk].user ==> r[k] == rows[k]
    ensures !d.isDefault ==> forall k :: k in rows && k != pk ==> r[k] == rows[k]
    ensures d.isDefault ==> forall k :: k in r && r[k].user == rows[pk].user && r[k].isDefault ==> k == pk
    ensures AtMostOneDefault(rows, rows[pk].user) ==> AtMostOneDefault(r, rows[pk].user)
  {
    var cleared := if d.isDefault then ClearDefaults(rows, rows[pk].user, Some(pk)) else rows;
    cleared[pk := Edited(rows[pk], d)]
  }

  /** The requester's own address `pk` (`get_object_or_404(Address, pk=pk, user=user)`). */
  predicate Owns(rows: Rows, user: UserId, pk: AddressId)
  {
    pk in rows && rows[pk].user == user
  }

  class AddressBook {
    var rows: Rows
    var nextId: AddressId

    ghost predicate Valid()
      reads this
    {
      forall k :: k in rows ==> k < nextId
    }

    constructor ()
      ensures Valid() && rows == map[] && nextId == 1
    {
      rows := map[];
      nextId := 1;
    }

    /** `address_create(request)`. */
    method Create(user: Option<UserId>, httpMethod: HttpMethod, form: FormResult) returns (outcome: Outcome)
      requires Valid()
      modifies this
      ensures Valid()
      ensures user.None? ==> outcome == RedirectToLogin && rows == old(rows)
      ensures user.Some? && (httpMethod == Get || form.Invalid?) ==> outcome == RenderForm && rows == old(rows)
      ensures user.Some? && httpMethod == Post && form.Valid? ==>
                var cleared := if form.data.isDefault then ClearDefaults(old(rows), user.value, None) else old(rows);
                && (NameTaken(old(rows), user.value, form.data.name, None) ==>
                      outcome == ServerError && rows == cleared)
                && (!NameTaken(old(rows), user.value, form.data.name, None) ==>
                      outcome == RedirectToList && old(nextId) !in old(rows)
                      && rows == CreatedRows(old(rows), old(nextId), user.value, form.data))
    {
      if user.None? {
        return RedirectToLogin;
      }
      if httpMethod == Post && form.Valid? {
        var u := user.value;
        var d := form.data;
        var address := FromForm(u, d);
        if address.isDefault {
          rows := ClearDefaults(rows, u, None);
        }
        if NameTaken(rows, u, d.name, None) {
          return ServerError;
        }
        rows := rows[nextId := address];
        nextId := nextId + 1;
        return RedirectToList;
      }
      return RenderForm;
    }

    /** `address_update(request, pk)`. */
    method Update(user: Option<UserId>, pk: AddressId, httpMethod: HttpMethod, form: FormResult) returns (outcome: Outcome)
      requires Valid()
      modifies this
      ensures Valid() && nextId == old(nextId)
      ensures user.None? ==> outcome == RedirectToLogin && rows == old(rows)
      ensures user.Some? && !Owns(old(rows), user.value, pk) ==> outcome == NotFound && rows == old(rows)
      ensures user.Some? && Owns(old(rows), user.value, pk) && (httpMethod == Get || form.Invalid?) ==>
                outcome == RenderForm && rows == old(rows)
      ensures user.Some? && Owns(old(rows), user.value, pk) && httpMethod == Post && form.Valid? ==>
                var cleared := if form.data.isDefault then ClearDefaults(old(rows), user.value, Some(pk)) else old(rows);
                && (NameTaken(old(rows), user.value, form.data.name, Some(pk)) ==>
                      outcome == ServerError && rows == cleared)
                && (!NameTaken(old(rows), user.value, form.data.name, Some(pk)) ==>
                      outcome == RedirectToList && rows == UpdatedRows(old(rows), pk, form.data))
    {
      if user.None? {
        return RedirectToLogin;
      }
      var u := user.value;
      if !Owns(rows, u, pk) {
        return NotFound;
      }
      if httpMethod == Post && form.Valid? {
        var d := form.data;
        var updated := Edited(rows[pk], d);
        if updated.isDefault {
          rows := ClearDefaults(rows, u, Some(pk));
        }
        if NameTaken(rows, u, d.name, Some(pk)) {
          return ServerError;
        }
        rows := rows[pk := updated];
        return RedirectToList;
      }
      return RenderForm;
    }

    /** `address_delete(request, pk)`. */
    method Delete(user: Option<UserId>, pk: AddressId, httpMethod: HttpMethod) returns (outcome: Outcome)
      requires Valid()
      modifies this
      ensures Valid() && nextId == old(nextId)
      ensures user.None? ==> outcome == RedirectToLogin && rows == old(rows)
      ensures user.Some? && !Owns(old(rows), user.value, pk) ==> outcome == NotFound && rows == old(rows)
      ensures user.Some? && Owns(old(rows), user.value, pk) && httpMethod == Get ==>
                outcome == RenderConfirm && rows == old(rows)
      ensures user.Some? && Owns(old(rows), user.value, pk) && httpMethod == Post ==>
                outcome == RedirectToList && rows == old(rows) - {pk}
    {
      if user.None? {
        return RedirectToLogin;
      }
      if !Owns(rows, user.value, pk) {
        return NotFound;
      }
      if httpMethod == Post {
        rows := rows - {pk};
        return RedirectToList;
      }
      return RenderConfirm;
    }

    /** `address_create` with the (user, name) pair checked as part of form
        validation: a clash re-renders the form and writes nothing. */
    method CreateChecked(user: Option<UserId>, httpMethod: HttpMethod, form: FormResult) returns (outcome: Outcome)
      requires Valid()
      modifies this
      ensures Valid()
      ensures outcome != ServerError
      ensures outcome != RedirectToList ==> rows == old(rows)
      ensures user.None? ==> outcome == RedirectToLogin
      ensures user.Some? && (httpMethod == Get || form.Invalid?) ==> outcome == RenderForm
      ensures user.Some? && httpMethod == Post && form.Valid? ==>
                && (NameTaken(old(rows), user.value, form.data.name, None) ==> outcome == RenderForm)
                && (!NameTaken(old(rows), user.value, form.data.name, None) ==>
                      outcome == RedirectToList && old(nextId) !in old(rows)
                      && rows == CreatedRows(old(rows), old(nextId), user.value, form.data))
    {
      if user.None? {
        return RedirectToLogin;
      }
      if httpMethod == Post && form.Valid? && !NameTaken(rows, user.value, form.data.name, None) {
        var address := FromForm(user.value, form.data);
        if address.isDefault {
          rows := ClearDefaults(rows, user.value, None);
        }
        rows := rows[nextId := address];
        nextId := nextId + 1;
        return RedirectToList;
      }
      return RenderForm;
    }

    /** `address_update` with the (user, name) pair checked as part of form
        validation: a clash re-renders the form and writes nothing. */
    method UpdateChecked(user: Option<UserId>, pk: AddressId, httpMethod: HttpMethod, form: FormResult) returns (outcome: Outcome)
      requires Valid()
      modifies this
      ensures Valid() && nextId == old(nextId)
      ensures outcome != ServerError
      ensures outcome != RedirectToList ==> rows == old(rows)
      ensures user.None? ==> outcome == RedirectToLogin
      ensures user.Some? && !Owns(old(rows), user.value, pk) ==> outcome == NotFound
      ensures user.Some? && Owns(old(rows), user.value, pk) && (httpMethod == Get || form.Invalid?) ==> outcome == RenderForm
      ensures user.Some? && Owns(old(rows), user.value, pk) && httpMethod == Post && form.Valid? ==>
                && (NameTaken(old(rows), user.value, form.data.name, Some(pk)) ==> outcome == RenderForm)
                && (!NameTaken(old(rows), user.value, form.data.name, Some(pk)) ==>
                      outcome == RedirectToList && rows == UpdatedRows(old(rows), pk, form.data))
    {
      if user.None? {
        return RedirectToLogin;
      }
      if !Owns(rows, user.value, pk) {
        return NotFound;
      }
      if httpMethod == Post && form.Valid? && !NameTaken(rows, user.value, form.data.name, Some(pk)) {
        var updated := Edited(rows[pk], form.data);
        if updated.isDefault {
          rows := ClearDefaults(rows, user.value, Some(pk));
        }
        rows := rows[pk := updated];
        return RedirectToList;
      }
      return RenderForm;
    }
  }

  /** The user has a default address. */
  predicate HasDefault(rows: Rows, user: UserId)
  {
    exists k :: k in rows && rows[k].user == user && rows[k].isDefault
  }

  /** A default address "Home" saved for user 7. */
  function HomeData(): AddressData
  {
    AddressData("Home", "1 High Street", "", "Leeds", "LS1 1AA", "GB", true)
  }

  /** As written: submitting a second default address named "Home" fails with
      a server error, and the user who had a default address is left with
      none, because the flags were cleared before the row was refused. */
  method DuplicateDefaultCreate() returns (outcome: Outcome, hadDefault: bool, hasDefault: bool)
    ensures outcome == ServerError && hadDefault && !hasDefault
  {
    var book := new AddressBook();
    var first := book.Create(Some(7), Post, Valid(HomeData()));
    assert book.rows == map[1 := FromForm(7, HomeData())];
    hadDefault := HasDefault(book.rows, 7);
    outcome := book.Create(Some(7), Post, Valid(HomeData()));
    hasDefault := HasDefault(book.rows, 7);
  }

  /** Corrected: the same submission re-renders the form and the user keeps
      their default address. */
  method DuplicateDefaultCreateChecked() returns (outcome: Outcome, hadDefault: bool, hasDefault: bool)
    ensures outcome == RenderForm && hadDefault && hasDefault
  {
    var book := new AddressBook();
    var first := book.CreateChecked(Some(7), Post, Valid(HomeData()));
    assert book.rows == map[1 := FromForm(7, HomeData())];
    hadDefault := HasDefault(book.rows, 7);
    outcome := book.CreateChecked(Some(7), Post, Valid(HomeData()));
    hasDefault := HasDefault(book.rows, 7);
  }

  /** Deleting never touches another address and never adds a default. */
  lemma DeleteKeepsAtMostOneDefault(rows: Rows, user: UserId, pk: AddressId)
    requires AtMostOneDefault(rows, user)
    ensures AtMostOneDefault(rows - {pk}, user)
  {
  }
}

=== FILE: base.dfy ===
/** Shared vocabulary of the storefront model: optional values, identifiers,
    Python truthiness on optional strings, string prefixes and a generic
    order-preserving filter (the shape of a Django `.filter(...)` queryset). */
module Base {

  datatype Option<T> = None | Some(value: T)

  type ProductId = nat
  type OrderId = nat
  type UserId = nat
  type AddressId = nat
  type CategoryId = nat
  type TeamId = nat

  /** The request method of a view. */
  datatype HttpMethod = Get | Post

  /** Python truthiness of an optional string: `None` and `""` are falsy. */
  predicate Truthy(s: Option<string>)
  {
    s.Some? && s.value != ""
  }

  /** Python's `a or b` on optional strings: `a` when it is truthy, else `b`. */
  function Or(a: Option<string>, b: Option<string>): (r: Option<string>)
    ensures Truthy(r) <==> Truthy(a) || Truthy(b)
    ensures Truthy(a) ==> r == a
    ensures !Truthy(a) ==> r == b
  {
    if Truthy(a) then a else b
  }

  predicate StartsWith(s: string, prefix: string)
  {
    |prefix| <= |s| && s[..|prefix|] == prefix
  }

  predicate EndsWith(s: string, suffix: string)
  {
    |suffix| <= |s| && s[|s| - |suffix|..] == suffix
  }

  /** The elements of `s` that satisfy `keep`, in their original order. */
  function Filter<T(!new)>(s: seq<T>, keep: T -> bool): (r: seq<T>)
    ensures |r| <= |s|
    ensures forall x :: multiset(r)[x] == if keep(x) then multiset(s)[x] else 0
    ensures forall x :: x in r <==> x in s && keep(x)
  {
    if s == [] then []
    else
      var rest := Filter(s[..|s| - 1], keep);
      assert s == s[..|s| - 1] + [s[|s| - 1]];
      if keep(s[|s| - 1]) then rest + [s[|s| - 1]] else rest
  }

  lemma {:induction false} FilterAppend<T(!new)>(a: seq<T>, b: seq<T>, keep: T -> bool)
    ensures Filter(a + b, keep) == Filter(a, keep) + Filter(b, keep)
    decreases |b|
  {
    if b == [] {
      assert a + b == a;
    } else {
      var b' := b[..|b| - 1];
      assert (a + b)[..|a + b| - 1] == a + b';
      FilterAppend(a, b', keep);
    }
  }

  /** Filtering with a test that no element passes leaves nothing. */
  lemma {:induction false} FilterKeepsNone<T(!new)>(s: seq<T>, keep: T -> bool)
    requires forall x :: x in s ==> !keep(x)
    ensures Filter(s, keep) == []
    decreases |s|
  {
    if s != [] {
      var init, last := s[..|s| - 1], s[|s| - 1];
      assert s == init + [last];
      forall x | x in init ensures !keep(x) {
        assert x in s;
      }
      FilterKeepsNone(init, keep);
      FilterSnoc(init, last, keep);
    }
  }

  /** Every element occurs at most once. */
  predicate Distinct<T(==)>(s: seq<T>)
  {
    forall i, j :: 0 <= i < j < |s| ==> s[i] != s[j]
  }

  /** Removing the last element of a distinct sequence leaves a distinct
      sequence that does not contain it. */
  lemma DistinctInit<T>(s: seq<T>)
    requires Distinct(s) && s != []
    ensures Distinct(s[..|s| - 1]) && s[|s| - 1] !in s[..|s| - 1]
  {
    var init := s[..|s| - 1];
    forall x | x in init ensures x != s[|s| - 1] {
      var i :| 0 <= i < |init| && init[i] == x;
      assert s[i] == x;
    }
  }

  lemma DistinctAppend<T>(s: seq<T>, x: T)
    requires Distinct(s) && x !in s
    ensures Distinct(s + [x])
  {
  }

  /** Filtering a sequence with one more element at the end. */
  lemma FilterSnoc<T(!new)>(s: seq<T>, x: T, keep: T -> bool)
    ensures Filter(s + [x], keep) == Filter(s, keep) + (if keep(x) then [x] else [])
  {
    assert (s + [x])[..|s|] == s;
  }

  lemma {:induction false} FilterDistinct<T(!new)>(s: seq<T>, keep: T -> bool)
    requires Distinct(s)
    ensures Distinct(Filter(s, keep))
    decreases |s|
  {
    if s != [] {
      var init := s[..|s| - 1];
      assert Distinct(init);
      FilterDistinct(init, keep);
    }
  }

  /** Filtering with a test that every element passes changes nothing. */
  lemma {:induction false} FilterKeepsAll<T(!new)>(s: seq<T>, keep: T -> bool)
    requires forall x :: x in s ==> keep(x)
    ensures Filter(s, keep) == s
    decreases |s|
  {
    if s != [] {
      var init, last := s[..|s| - 1], s[|s| - 1];
      assert s == init + [last];
      forall x | x in init ensures keep(x) {
        assert x in s;
      }
      FilterKeepsAll(init, keep);
      FilterSnoc(init, last, keep);
    }
  }
}

=== FILE: cart.dfy ===
/** The session cart of cart/cart.py.

    The session holds, under the key "cart", a dictionary from product id to
    `{"quantity": q, "price": str(price)}`. A `Cart` object keeps a reference to
    that same dictionary and mutates it in place; the dictionary is modelled as
    an object (`CartDict`) so that this sharing is exact: `clear()` removes the
    key from the session, while the instance still holds the old dictionary.
    Insertion order of the dictionary is kept in `keys`. */
module CartStore {
  import opened Base
  import Money
  import Shop

  /** A stored entry: quantity and the price snapshot as text. */
  datatype Line = Line(quantity: nat, price: string)

  /** A yielded line: the stored entry with its live product, the price read
      back from its text and `total_price = price * quantity` (pence). */
  datatype CartItem = CartItem(product: Shop.Product, quantity: nat, price: nat, totalPrice: nat)

  type Catalog = map<ProductId, Shop.Product>

  /** Keys in insertion order, each once, exactly the keys of the entries, and
      every stored price text reads back as pence. */
  ghost predicate WellFormed(keys: seq<ProductId>, lines: map<ProductId, Line>)
  {
    && Distinct(keys)
    && (forall k :: k in lines <==> k in keys)
    && (forall k :: k in lines ==> Money.ParsePence(lines[k].price).Some?)
  }

  /** `sum(item["quantity"] for item in cart.values())`. */
  function QuantitySum(keys: seq<ProductId>, lines: map<ProductId, Line>): (r: nat)
    requires forall k :: k in keys ==> k in lines
  {
    if keys == [] then 0
    else QuantitySum(keys[..|keys| - 1], lines) + lines[keys[|keys| - 1]].quantity
  }

  /** The keys whose product still exists in the catalog, in order. */
  function Live(keys: seq<ProductId>, catalog: Catalog): (r: seq<ProductId>)
    ensures |r| <= |keys|
    ensures forall k :: k in r <==> k in keys && k in catalog
  {
    Filter(keys, (k: ProductId) => k in catalog)
  }

  /** The keys other than `pid`, in order. */
  function Without(keys: seq<ProductId>, pid: ProductId): (r: seq<ProductId>)
    ensures |r| <= |keys|
    ensures forall k :: k in r <==> k in keys && k != pid
  {
    Filter(keys, (k: ProductId) => k != pid)
  }

  /** The stored entries whose product still exists in the catalog. */
  function Pruned(lines: map<ProductId, Line>, catalog: Catalog): (r: map<ProductId, Line>)
    ensures forall k :: k in r <==> k in lines && k in catalog
    ensures forall k :: k in r ==> r[k] == lines[k]
  {
    map k | k in lines && k in catalog :: lines[k]
  }

  /** Some stored entry refers to a product that no longer exists. */
  predicate HasStale(lines: map<ProductId, Line>, catalog: Catalog)
  {
    exists k :: k in lines && k !in catalog
  }

  /** The price a stored entry's text reads back as (0 for text that is not a
      price; a well-formed cart holds none). */
  function PriceOf(line: Line): nat
  {
    var p := Money.ParsePence(line.price);
    if p.Some? then p.value else 0
  }

  /** The yielded line for each key, in order. */
  function ItemsOf(keys: seq<ProductId>, lines: map<ProductId, Line>, catalog: Catalog): (r: seq<CartItem>)
    requires forall k :: k in keys ==> k in lines && k in catalog
    ensures |r| == |keys|
  {
    if keys == [] then []
    else
      var k := keys[|keys| - 1];
      var price := PriceOf(lines[k]);
      ItemsOf(keys[..|keys| - 1], lines, catalog) + [CartItem(catalog[k], lines[k].quantity, price, price * lines[k].quantity)]
  }

  /** Item `i` is built from key `i`: its live product, its stored quantity,
      its price read back from text and `price * quantity` as its total. */
  lemma {:induction false} ItemsOfAt(keys: seq<ProductId>, lines: map<ProductId, Line>, catalog: Catalog, i: nat)
    requires forall k :: k in keys ==> k in lines && k in catalog
    requires i < |keys|
    ensures var r := ItemsOf(keys, lines, catalog);
            && r[i].product == catalog[keys[i]]
            && r[i].quantity == lines[keys[i]].quantity
            && r[i].price == PriceOf(lines[keys[i]])
            && r[i].totalPrice == r[i].price * r[i].quantity
    decreases |keys|
  {
    if i < |keys| - 1 {
      var init := keys[..|keys| - 1];
      assert forall k :: k in init ==> k in keys;
      ItemsOfAt(init, lines, catalog, i);
    }
  }

  /** What one full enumeration of a stored cart yields: one item per live
      key, in order. */
  function Enumerate(keys: seq<ProductId>, lines: map<ProductId, Line>, catalog: Catalog): (r: seq<CartItem>)
    requires WellFormed(keys, lines)
    ensures |r| == |Live(keys, catalog)|
  {
    ItemsOf(Live(keys, catalog), lines, catalog)
  }

  /** Each enumerated item carries the live product of its key, the stored
      quantity, the stored price snapshot read back exactly, and
      `price * quantity`. */
  lemma EnumerateAt(keys: seq<ProductId>, lines: map<ProductId, Line>, catalog: Catalog, i: nat)
    requires WellFormed(keys, lines)
    requires i < |Live(keys, catalog)|
    ensures var live := Live(keys, catalog);
            var r := Enumerate(keys, lines, catalog);
            && live[i] in catalog && live[i] in lines
            && r[i].product == catalog[live[i]]
            && r[i].quantity == lines[live[i]].quantity
            && Money.ParsePence(lines[live[i]].price) == Some(r[i].price)
            && r[i].totalPrice == r[i].price * r[i].quantity
  {
    var live := Live(keys, catalog);
    assert live[i] in live;
    ItemsOfAt(live, lines, catalog, i);
  }

  /** `sum(item["total_price"] for item in items)`, starting from zero. */
  function SumTotals(items: seq<CartItem>): (r: nat)
  {
    if items == [] then 0 else SumTotals(items[..|items| - 1]) + items[|items| - 1].totalPrice
  }

  // ----- lemmas about the stored counts -----

  lemma {:induction false} QuantitySumFrame(keys: seq<ProductId>, lines: map<ProductId, Line>, lines': map<ProductId, Line>)
    requires forall k :: k in keys ==> k in lines && k in lines' && lines'[k].quantity == lines[k].quantity
    ensures QuantitySum(keys, lines') == QuantitySum(keys, lines)
    decreases |keys|
  {
    if keys != [] {
      QuantitySumFrame(keys[..|keys| - 1], lines, lines');
    }
  }

  /** Changing one present entry changes the count by the change in its quantity. */
  lemma {:induction false} QuantitySumUpdate(keys: seq<ProductId>, lines: map<ProductId, Line>, pid: ProductId, line: Line)
    requires Distinct(keys) && pid in keys
    requires forall k :: k in keys ==> k in lines
    ensures QuantitySum(keys, lines[pid := line]) == QuantitySum(keys, lines) - lines[pid].quantity + line.quantity
    decreases |keys|
  {
    var init := keys[..|keys| - 1];
    var last := keys[|keys| - 1];
    assert keys == init + [last];
    DistinctInit(keys);
    if last == pid {
      QuantitySumFrame(init, lines, lines[pid := line]);
    } else {
      QuantitySumUpdate(init, lines, pid, line);
    }
  }

  /** A new entry at the end adds its quantity to the count. */
  lemma QuantitySumAppend(keys: seq<ProductId>, lines: map<ProductId, Line>, pid: ProductId, line: Line)
    requires pid !in keys
    requires forall k :: k in keys ==> k in lines
    ensures QuantitySum(keys + [pid], lines[pid := line]) == QuantitySum(keys, lines) + line.quantity
  {
    assert (keys + [pid])[..|keys|] == keys;
    QuantitySumFrame(keys, lines, lines[pid := line]);
  }

  lemma QuantitySumSnoc(keys: seq<ProductId>, x: ProductId, lines: map<ProductId, Line>)
    requires forall k :: k in keys ==> k in lines
    requires x in lines
    ensures QuantitySum(keys + [x], lines) == QuantitySum(keys, lines) + lines[x].quantity
  {
    assert (keys + [x])[..|keys|] == keys;
  }

  /** Deleting a present entry takes its quantity off the count. */
  lemma {:induction false} QuantitySumRemove(keys: seq<ProductId>, lines: map<ProductId, Line>, pid: ProductId)
    requires Distinct(keys) && pid in keys
    requires forall k :: k in keys ==> k in lines
    ensures QuantitySum(Without(keys, pid), lines - {pid}) == QuantitySum(keys, lines) - lines[pid].quantity
    decreases |keys|
  {
    var init := keys[..|keys| - 1];
    var last := keys[|keys| - 1];
    assert keys == init + [last];
    DistinctInit(keys);
    FilterSnoc(init, last, (k: ProductId) => k != pid);
    if last == pid {
      QuantitySumRemoveLast(init, lines, pid);
    } else {
      QuantitySumRemove(init, lines, pid);
      QuantitySumSnoc(Without(init, pid), last, lines - {pid});
    }
  }

  lemma QuantitySumRemoveLast(init: seq<ProductId>, lines: map<ProductId, Line>, pid: ProductId)
    requires pid !in init && pid in lines
    requires forall k :: k in init ==> k in lines
    ensures Without(init + [pid], pid) == init
    ensures QuantitySum(init, lines - {pid}) == QuantitySum(init + [pid], lines) - lines[pid].quantity
  {
    FilterSnoc(init, pid, (k: ProductId) => k != pid);
    FilterKeepsAll(init, (k: ProductId) => k != pid);
    QuantitySumFrame(init, lines, lines - {pid});
    QuantitySumSnoc(init, pid, lines);
  }

  /** ... the removal of an entry ... */
  lemma WellFormedRemove(keys: seq<ProductId>, lines: map<ProductId, Line>, pid: ProductId)
    requires WellFormed(keys, lines)
    ensures WellFormed(Without(keys, pid), lines - {pid})
  {
    FilterDistinct(keys, (k: ProductId) => k != pid);
  }

  /** ... and the pruning of stale entries. */
  lemma WellFormedPrune(keys: seq<ProductId>, lines: map<ProductId, Line>, catalog: Catalog)
    requires WellFormed(keys, lines)
    ensures WellFormed(Live(keys, catalog), Pruned(lines, catalog))
  {
    FilterDistinct(keys, (k: ProductId) => k in catalog);
  }

  /** The stored quantity of a product, 0 when it has no entry. */
  function QuantityOf(lines: map<ProductId, Line>, pid: ProductId): nat
  {
    if pid in lines then lines[pid].quantity else 0
  }

  /** The stored cart after `add`: a product without an entry first gets one
      at the end, with quantity 0 and the text of its current price; then the
      quantity is replaced (override) or increased. */
  function AfterAdd(keys: seq<ProductId>, lines: map<ProductId, Line>, product: Shop.Product, quantity: nat, overrideQuantity: bool)
    : (seq<ProductId>, map<ProductId, Line>)
  {
    var pid := product.id;
    var keys1 := if pid in lines then keys else keys + [pid];
    var lines1 := if pid in lines then lines else lines[pid := Line(0, Money.FormatPence(product.price))];
    var q := if overrideQuantity then quantity else lines1[pid].quantity + quantity;
    (keys1, lines1[pid := lines1[pid].(quantity := q)])
  }

  /** `add` keeps the stored cart well formed, sets the product's quantity,
      keeps an existing price snapshot (or takes the current price for a new
      entry), leaves every other entry alone and moves the item count by
      exactly the change in that quantity. */
  lemma AddCount(keys: seq<ProductId>, lines: map<ProductId, Line>, product: Shop.Product, quantity: nat, overrideQuantity: bool)
    requires WellFormed(keys, lines)
    ensures var (keys', lines') := AfterAdd(keys, lines, product, quantity, overrideQuantity);
            var pid := product.id;
            var after := if overrideQuantity then quantity else QuantityOf(lines, pid) + quantity;
            && WellFormed(keys', lines')
            && pid in lines' && lines'[pid].quantity == after
            && lines'[pid].price == (if pid in lines then lines[pid].price else Money.FormatPence(product.price))
            && (forall k :: k in lines && k != pid ==> k in lines' && lines'[k] == lines[k])
            && QuantitySum(keys', lines') == QuantitySum(keys, lines) - QuantityOf(lines, pid) + after
  {
    var pid := product.id;
    var after := if overrideQuantity then quantity else QuantityOf(lines, pid) + quantity;
    if pid in lines {
      assert AfterAdd(keys, lines, product, quantity, overrideQuantity) == (keys, lines[pid := lines[pid].(quantity := after)]);
      SetQuantity(keys, lines, pid, after);
    } else {
      var entry := Line(0, Money.FormatPence(product.price));
      assert AfterAdd(keys, lines, product, quantity, overrideQuantity) == (keys + [pid], lines[pid := entry][pid := entry.(quantity := after)]);
      Money.FormatPenceRoundTrip(product.price);
      AppendEntry(keys, lines, pid, entry);
      SetQuantity(keys + [pid], lines[pid := entry], pid, after);
    }
  }

  /** The dictionary steps of `add`: create a missing entry at the end with
      quantity 0 and the text of the current price, then set or increase the
      quantity. */
  method AddEntry(keys: seq<ProductId>, lines: map<ProductId, Line>, product: Shop.Product, quantity: nat, overrideQuantity: bool)
    returns (keys': seq<ProductId>, lines': map<ProductId, Line>)
    ensures keys' == AfterAdd(keys, lines, product, quantity, overrideQuantity).0
    ensures lines' == AfterAdd(keys, lines, product, quantity, overrideQuantity).1
  {
    keys', lines' := keys, lines;
    var pid := product.id;
    if pid !in lines' {
      lines' := lines'[pid := Line(0, Money.FormatPence(product.price))];
      keys' := keys' + [pid];
    }
    var q := if overrideQuantity then quantity else lines'[pid].quantity + quantity;
    lines' := lines'[pid := lines'[pid].(quantity := q)];
  }

  lemma SetQuantity(keys: seq<ProductId>, lines: map<ProductId, Line>, pid: ProductId, q: nat)
    requires WellFormed(keys, lines) && pid in lines
    ensures WellFormed(keys, lines[pid := lines[pid].(quantity := q)])
    ensures QuantitySum(keys, lines[pid := lines[pid].(quantity := q)]) == QuantitySum(keys, lines) - lines[pid].quantity + q
  {
    QuantitySumUpdate(keys, lines, pid, lines[pid].(quantity := q));
  }

  lemma AppendEntry(keys: seq<ProductId>, lines: map<ProductId, Line>, pid: ProductId, entry: Line)
    requires WellFormed(keys, lines) && pid !in lines
    requires Money.ParsePence(entry.price).Some?
    ensures WellFormed(keys + [pid], lines[pid := entry])
    ensures QuantitySum(keys + [pid], lines[pid := entry]) == QuantitySum(keys, lines) + entry.quantity
  {
    QuantitySumAppend(keys, lines, pid, entry);
    DistinctAppend(keys, pid);
  }

  /** The collected stale keys are non-empty exactly when some entry is stale. */
  lemma StaleFound(keys: seq<ProductId>, lines: map<ProductId, Line>, catalog: Catalog, stale: seq<ProductId>)
    requires WellFormed(keys, lines)
    requires forall k :: k in stale <==> k in keys && k !in catalog
    ensures stale != [] <==> HasStale(lines, catalog)
  {
    if stale != [] {
      assert stale[0] in stale;
    }
  }

  /** With no stale entry, pruning keeps every key and every entry. */
  lemma NothingStale(keys: seq<ProductId>, lines: map<ProductId, Line>, catalog: Catalog)
    requires WellFormed(keys, lines) && !HasStale(lines, catalog)
    ensures Live(keys, catalog) == keys && Pruned(lines, catalog) == lines
  {
    FilterKeepsAll(keys, (k: ProductId) => k in catalog);
  }

  /** The keys whose product is missing from the catalog, in order. */
  function Stale(keys: seq<ProductId>, catalog: Catalog): (r: seq<ProductId>)
    ensures forall k :: k in r <==> k in keys && k !in catalog
  {
    Filter(keys, (k: ProductId) => k !in catalog)
  }

  /** One more key of the cart adds it to the stale keys iff its product is gone. */
  lemma StaleStep(keys: seq<ProductId>, i: nat, catalog: Catalog)
    requires i < |keys|
    ensures Stale(keys[..i + 1], catalog) == Stale(keys[..i], catalog) + (if keys[i] !in catalog then [keys[i]] else [])
  {
    assert keys[..i + 1] == keys[..i] + [keys[i]];
    FilterSnoc(keys[..i], keys[i], (k: ProductId) => k !in catalog);
  }

  /** The whole cart's prefix is the cart. */
  lemma StaleAll(keys: seq<ProductId>, catalog: Catalog)
    ensures Stale(keys[..|keys|], catalog) == Stale(keys, catalog)
  {
    assert keys[..|keys|] == keys;
  }

  /** `[pid for pid, data in cart_copy.items() if "product" not in data]`:
      the loop collects the stale keys, in the cart's order. */
  method StaleKeys(keys: seq<ProductId>, catalog: Catalog) returns (stale: seq<ProductId>)
    ensures stale == Stale(keys, catalog)
  {
    stale := [];
    var i := 0;
    while i < |keys|
      invariant 0 <= i <= |keys|
      invariant stale == Stale(keys[..i], catalog)
    {
      StaleStep(keys, i, catalog);
      if keys[i] !in catalog {
        stale := stale + [keys[i]];
      }
      i := i + 1;
    }
    StaleAll(keys, catalog);
  }

  /** The yielding loop of `__iter__`: for each live key, the entry with its
      product, its price read back from text and `price * quantity`. */
  method Normalize(live: seq<ProductId>, lines: map<ProductId, Line>, catalog: Catalog) returns (items: seq<CartItem>)
    requires forall k :: k in live ==> k in lines && k in catalog
    ensures items == ItemsOf(live, lines, catalog)
  {
    items := [];
    var j := 0;
    while j < |live|
      invariant 0 <= j <= |live|
      invariant items == ItemsOf(live[..j], lines, catalog)
    {
      var k := live[j];
      assert k in live;
      var price := PriceOf(lines[k]);
      assert live[..j + 1] == live[..j] + [k];
      items := items + [CartItem(catalog[k], lines[k].quantity, price, price * lines[k].quantity)];
      j := j + 1;
    }
    assert live[..|live|] == live;
  }

  /** The accumulation of `get_total_price`, from `Decimal("0.00")`. */
  method AddTotals(items: seq<CartItem>) returns (total: nat)
    ensures total == SumTotals(items)
  {
    total := 0;
    var i := 0;
    while i < |items|
      invariant 0 <= i <= |items|
      invariant total == SumTotals(items[..i])
    {
      assert items[..i + 1][..i] == items[..i];
      total := total + items[i].totalPrice;
      i := i + 1;
    }
    assert items[..|items|] == items;
  }

  // ----- the session and the cart -----

  /** The stored cart dictionary, shared between the session and a `Cart`. */
  class CartDict {
    var keys: seq<ProductId>
    var lines: map<ProductId, Line>

    ghost predicate Valid()
      reads this
    {
      WellFormed(keys, lines)
    }

    constructor ()
      ensures Valid() && keys == [] && lines == map[]
    {
      keys := [];
      lines := map[];
    }
  }

  /** The parts of the request session this model uses. */
  class Session {
    var cart: CartDict?         // session["cart"]; null when the key is absent
    var orderId: Option<int>    // session["order_id"]
    var modified: bool          // session.modified

    constructor (cart: CartDict?, orderId: Option<int>)
      ensures this.cart == cart && this.orderId == orderId && !modified
    {
      this.cart := cart;
      this.orderId := orderId;
      modified := false;
    }
  }

  /** The item count of the cart a session stores (0 when it stores none). */
  ghost function StoredCount(session: Session): nat
    reads session, session.cart
    requires session.cart != null ==> session.cart.Valid()
  {
    if session.cart == null then 0 else QuantitySum(session.cart.keys, session.cart.lines)
  }

  class Cart {
    const session: Session
    var data: CartDict          // self.cart

    ghost predicate Valid()
      reads this, data
    {
      data.Valid()
    }

    /** `len(cart)`: the sum of the quantities of every stored entry. */
    function Len(): (r: nat)
      reads this, data
      requires Valid()
    {
      QuantitySum(data.keys, data.lines)
    }

    /** `Cart(request)`: reuse the session's cart dictionary, or store a new
        empty one (which marks the session modified) when the key is missing
        or the dictionary is empty. */
    constructor (session: Session)
      requires session.cart != null ==> session.cart.Valid()
      modifies session
      ensures this.session == session && Valid() && session.cart == data
      ensures old(session.cart) != null && old(session.cart.keys) != [] ==> data == old(session.cart)
      ensures old(session.cart) == null || old(session.cart.keys) == [] ==>
                fresh(data) && data.keys == [] && data.lines == map[] && session.modified
      ensures old(session.cart) != null && old(session.cart.keys) != [] ==> session.modified == old(session.modified)
      ensures session.orderId == old(session.orderId)
    {
      this.session := session;
      var stored := session.cart;
      if stored == null || stored.keys == [] {
        stored := new CartDict();
        session.cart := stored;     // assigning a session key marks it modified
        session.modified := true;
      }
      data := stored;
    }

    /** `save()`: mark the session modified. */
    method Save()
      modifies session
      ensures session.modified
      ensures session.cart == old(session.cart) && session.orderId == old(session.orderId)
    {
      session.modified := true;
    }

    /** `add(product, quantity, override_quantity)`, with the stored cart
        becoming `AfterAdd` of the old one. */
    method Add(product: Shop.Product, quantity: nat, overrideQuantity: bool)
      requires Valid()
      modifies data, session
      ensures Valid() && data == old(data)
      ensures (data.keys, data.lines) == AfterAdd(old(data.keys), old(data.lines), product, quantity, overrideQuantity)
      ensures Len() == old(Len()) - QuantityOf(old(data.lines), product.id)
                       + (if overrideQuantity then quantity else QuantityOf(old(data.lines), product.id) + quantity)
      ensures session.modified
      ensures session.cart == old(session.cart) && session.orderId == old(session.orderId)
    {
      ghost var count := QuantitySum(data.keys, data.lines);
      AddCount(data.keys, data.lines, product, quantity, overrideQuantity);
      var keys, lines := AddEntry(data.keys, data.lines, product, quantity, overrideQuantity);
      assert WellFormed(keys, lines);
      ghost var after := if overrideQuantity then quantity else QuantityOf(data.lines, product.id) + quantity;
      assert QuantitySum(keys, lines) == count - QuantityOf(data.lines, product.id) + after;
      data.keys, data.lines := keys, lines;
      Save();
    }

    /** `remove(product)`: delete the entry if present; otherwise do nothing,
        not even mark the session modified. */
    method Remove(product: Shop.Product)
      requires Valid()
      modifies data, session
      ensures Valid() && data == old(data)
      ensures data.lines == old(data.lines) - {product.id}
      ensures product.id in old(data.lines) ==>
                && data.keys == Without(old(data.keys), product.id)
                && Len() == old(Len()) - old(data.lines)[product.id].quantity
      ensures product.id !in old(data.lines) ==> data.keys == old(data.keys)
      ensures session.modified == (old(session.modified) || product.id in old(data.lines))
      ensures session.cart == old(session.cart) && session.orderId == old(session.orderId)
    {
      var pid := product.id;
      if pid in data.lines {
        QuantitySumRemove(data.keys, data.lines, pid);
        FilterDistinct(data.keys, (k: ProductId) => k != pid);
        data.lines := data.lines - {pid};
        data.keys := Without(data.keys, pid);
        Save();
      }
    }

    /** `for item in cart`: entries whose product is gone from the catalog are
        removed from the stored cart (and the session marked modified, only if
        there were any); the others are yielded in order, each with its live
        product, its price read back from text and its total. */
    method Items(catalog: Catalog) returns (items: seq<CartItem>)
      requires Valid()
      modifies data, session
      ensures Valid() && data == old(data)
      ensures data.keys == Live(old(data.keys), catalog)
      ensures data.lines == Pruned(old(data.lines), catalog)
      ensures items == Enumerate(old(data.keys), old(data.lines), catalog)
      ensures session.modified == (old(session.modified) || HasStale(old(data.lines), catalog))
      ensures session.cart == old(session.cart) && session.orderId == old(session.orderId)
    {
      var copy := data.lines;      // cart_copy
      var stale := StaleKeys(data.keys, catalog);
      StaleFound(data.keys, copy, catalog, stale);
      var live := Live(data.keys, catalog);
      WellFormedPrune(data.keys, data.lines, catalog);
      if stale != [] {
        data.lines := Pruned(data.lines, catalog);
        data.keys := live;
        Save();
      } else {
        NothingStale(data.keys, data.lines, catalog);
      }
      items := Normalize(live, copy, catalog);
    }

    /** `get_total_price()`: starting from zero, add up the totals of one
        enumeration (so it prunes as enumeration does). */
    method GetTotalPrice(catalog: Catalog) returns (total: nat)
      requires Valid()
      modifies data, session
      ensures Valid() && data == old(data)
      ensures data.keys == Live(old(data.keys), catalog)
      ensures data.lines == Pruned(old(data.lines), catalog)
      ensures total == SumTotals(Enumerate(old(data.keys), old(data.lines), catalog))
      ensures session.modified == (old(session.modified) || HasStale(old(data.lines), catalog))
      ensures session.cart == old(session.cart) && session.orderId == old(session.orderId)
    {
      var items := Items(catalog);
      total := AddTotals(items);
    }

    /** `clear()` with the instance emptied as well: the key is removed from the
        session, the session is marked modified and the instance no longer
        counts the removed lines. */
    method Clear()
      requires Valid()
      modifies this, session
      ensures Valid() && fresh(data) && data.keys == [] && data.lines == map[] && Len() == 0
      ensures session.cart == null && session.modified && session.orderId == old(session.orderId)
    {
      session.cart := null;
      data := new CartDict();
      Save();
    }

    /** `clear()` as cart/cart.py writes it: only the session key is removed;
        the instance keeps the dictionary it was holding. */
    method ClearAsWritten()
      requires Valid()
      modifies session
      ensures Valid() && data == old(data) && Len() == old(Len())
      ensures session.cart == null && session.modified && session.orderId == old(session.orderId)
    {
      session.cart := null;
      Save();
    }
  }

  // ----- the cart test, replayed -----

  function TestP1(): Shop.Product { Shop.Product(1, "P1", "p1", 1000, true, 1, Some(1)) }
  function TestP2(): Shop.Product { Shop.Product(2, "P2", "p2", 550, true, 1, Some(1)) }
  function TestCatalog(): Catalog { map[1 := TestP1(), 2 := TestP2()] }

  /** The stored cart after adding P1 twice and P2 once. */
  function FilledLines(): map<ProductId, Line>
  {
    map[1 := Line(2, Money.FormatPence(1000)), 2 := Line(1, Money.FormatPence(550))]
  }

  /** The test cart is well formed: both price snapshots read back. */
  lemma TestCartWellFormed()
    ensures WellFormed([1, 2], FilledLines()) && WellFormed([1], FilledLines() - {2})
  {
    TestPricesRead();
    var lines := FilledLines();
    assert forall k :: k in lines <==> k in [1, 2];
    assert forall k :: k in lines - {2} <==> k in [1];
  }

  /** Both price snapshots of the test cart read back. */
  lemma TestPricesRead()
    ensures forall k :: k in FilledLines() ==> Money.ParsePence(FilledLines()[k].price).Some?
  {
    Money.FormatPenceRoundTrip(1000);
    Money.FormatPenceRoundTrip(550);
  }

  /** Every product of the test cart exists, so enumeration prunes nothing,
      and removing P2 leaves P1 alone. */
  lemma TestCartShape()
    ensures Live([1, 2], TestCatalog()) == [1, 2] && Pruned(FilledLines(), TestCatalog()) == FilledLines()
    ensures Without([1, 2], 2) == [1]
    ensures Live([1], TestCatalog()) == [1] && Pruned(FilledLines() - {2}, TestCatalog()) == FilledLines() - {2}
  {
    TestCartLive();
    TestCartWithout();
    TestCartPruned();
  }

  lemma TestCartPruned()
    ensures Pruned(FilledLines(), TestCatalog()) == FilledLines()
    ensures Pruned(FilledLines() - {2}, TestCatalog()) == FilledLines() - {2}
  {
    var lines := FilledLines();
    assert Pruned(lines, TestCatalog()) == lines;
    assert Pruned(lines - {2}, TestCatalog()) == lines - {2};
  }

  lemma TestCartLive()
    ensures Live([1, 2], TestCatalog()) == [1, 2] && Live([1], TestCatalog()) == [1]
  {
    var catalog := TestCatalog();
    var both: seq<ProductId> := [1, 2];
    var one: seq<ProductId> := [1];
    FilterKeepsAll(both, (k: ProductId) => k in catalog);
    FilterKeepsAll(one, (k: ProductId) => k in catalog);
  }

  lemma TestCartWithout()
    ensures Without([1, 2], 2) == [1]
  {
    var both: seq<ProductId> := [1, 2];
    var one: seq<ProductId> := [1];
    FilterSnoc(one, 2, (k: ProductId) => k != 2);
    FilterKeepsAll(one, (k: ProductId) => k != 2);
    assert one + [2] == both;
  }

  /** The values cart/tests/test_cart.py expects, on the stored cart: 3 items,
      a first line for P1 totalling 20.00, 25.50 in all, and 20.00 once P2 is
      removed. */
  lemma CartTestValues()
    ensures WellFormed([1, 2], FilledLines()) && WellFormed([1], FilledLines() - {2})
    ensures QuantitySum([1, 2], FilledLines()) == 3
    ensures var items := Enumerate([1, 2], FilledLines(), TestCatalog());
            |items| == 2 && items[0].product == TestP1() && items[0].totalPrice == 2000
            && SumTotals(items) == 2550
    ensures SumTotals(Enumerate([1], FilledLines() - {2}, TestCatalog())) == 2000
  {
    TestCartWellFormed();
    TestCartCount();
    TestCartItems();
    TestCartRemoved();
  }

  lemma TestCartCount()
    ensures QuantitySum([1, 2], FilledLines()) == 3
  {
    var both: seq<ProductId> := [1, 2];
    assert both[..1] == [1];
  }

  lemma TestCartItems()
    requires WellFormed([1, 2], FilledLines())
    ensures var items := Enumerate([1, 2], FilledLines(), TestCatalog());
            |items| == 2 && items[0].product == TestP1() && items[0].totalPrice == 2000
            && SumTotals(items) == 2550
  {
    TestCartLive();
    Money.FormatPenceRoundTrip(1000);
    Money.FormatPenceRoundTrip(550);
    var both: seq<ProductId> := [1, 2];
    var items := ItemsOf(both, FilledLines(), TestCatalog());
    assert both[..1] == [1];
    assert items[..1] == [items[0]];
  }

  lemma TestCartRemoved()
    requires WellFormed([1], FilledLines() - {2})
    ensures SumTotals(Enumerate([1], FilledLines() - {2}, TestCatalog())) == 2000
  {
    TestCartLive();
    Money.FormatPenceRoundTrip(1000);
  }

  /** The sequence of cart/tests/test_cart.py on a `Cart`: P1 (10.00) twice and
      P2 (5.50) once count 3 items, the first line is P1 totalling 20.00, the
      cart 25.50, and 20.00 once P2 is removed. After `clear()` the cleared
      instance still counts 2 (the test expects 0), while a new `Cart` on the
      same session is empty. */
  method CartTestScenario() returns (count: nat, first: CartItem, total: nat, totalAfterRemove: nat, clearedCount: nat, countAfterClear: nat)
    ensures count == 3 && first.product == TestP1() && first.totalPrice == 2000
    ensures total == 2550 && totalAfterRemove == 2000
    ensures clearedCount == 2 && countAfterClear == 0
  {
    TestCartWellFormed();
    TestCartShape();
    CartTestValues();
    var session := new Session(null, None);
    var cart := FilledCart(session);
    count := cart.Len();
    first := FirstItem(cart);
    total := RemainingTotal(cart);
    cart.Remove(TestP2());
    assert cart.data.keys == [1] && cart.data.lines == FilledLines() - {2};
    totalAfterRemove := RemainingTotal(cart);
    cart.ClearAsWritten();
    clearedCount := cart.Len();
    var again := new Cart(session);
    countAfterClear := again.Len();
  }

  /** A new cart on an empty session, with P1 added twice and P2 once. */
  method FilledCart(session: Session) returns (cart: Cart)
    requires session.cart == null
    modifies session
    ensures cart.session == session && cart.Valid() && fresh(cart.data)
    ensures cart.data.keys == [1, 2] && cart.data.lines == FilledLines()
  {
    cart := new Cart(session);
    TestAdds();
    cart.Add(TestP1(), 2, false);
    cart.Add(TestP2(), 1, false);
  }

  /** Adding P1 twice to an empty cart, then P2 once. */
  lemma TestAdds()
    ensures AfterAdd([], map[], TestP1(), 2, false) == ([1], map[1 := Line(2, Money.FormatPence(1000))])
    ensures AfterAdd([1], map[1 := Line(2, Money.FormatPence(1000))], TestP2(), 1, false) == ([1, 2], FilledLines())
  {
    var empty: map<ProductId, Line> := map[];
    var none: seq<ProductId> := [];
    var l1 := Line(0, Money.FormatPence(1000));
    var one: map<ProductId, Line> := map[1 := Line(2, Money.FormatPence(1000))];
    assert none + [1] == [1];
    assert empty[1 := l1][1 := l1.(quantity := 2)] == one;
    var l2 := Line(0, Money.FormatPence(550));
    var ids: seq<ProductId> := [1];
    assert ids + [2] == [1, 2];
    assert one[2 := l2][2 := l2.(quantity := 1)] == FilledLines();
  }

  /** The first item of one enumeration of the filled cart. */
  method FirstItem(cart: Cart) returns (first: CartItem)
    requires cart.Valid() && cart.data.keys == [1, 2] && cart.data.lines == FilledLines()
    modifies cart.data, cart.session
    ensures cart.Valid() && cart.data == old(cart.data)
    ensures cart.data.keys == [1, 2] && cart.data.lines == FilledLines()
    ensures first.product == TestP1() && first.totalPrice == 2000
  {
    TestCartShape();
    CartTestValues();
    var items := cart.Items(TestCatalog());
    first := items[0];
  }

  /** `get_total_price()` of the filled cart, before and after P2 is removed. */
  method RemainingTotal(cart: Cart) returns (total: nat)
    requires cart.Valid()
    requires || (cart.data.keys == [1, 2] && cart.data.lines == FilledLines())
             || (cart.data.keys == [1] && cart.data.lines == FilledLines() - {2})
    modifies cart.data, cart.session
    ensures cart.Valid() && cart.data == old(cart.data)
    ensures cart.data.keys == old(cart.data.keys) && cart.data.lines == old(cart.data.lines)
    ensures old(cart.data.keys) == [1, 2] ==> total == 2550
    ensures old(cart.data.keys) == [1] ==> total == 2000
  {
    TestCartShape();
    CartTestValues();
    total := cart.GetTotalPrice(TestCatalog());
  }

  /** The last step of that test as cart/cart.py is written: after `clear()`
      the same instance still counts the two P1 items, not 0. */
  method ClearedInstanceStillCounts() returns (count: nat)
    ensures count == 2
  {
    var p1 := Shop.Product(1, "P1", "p1", 1000, true, 1, Some(1));
    var p2 := Shop.Product(2, "P2", "p2", 550, true, 1, Some(1));
    var session := new Session(null, None);
    var cart := new Cart(session);
    cart.Add(p1, 2, false);
    cart.Add(p2, 1, false);
    cart.Remove(p2);
    cart.ClearAsWritten();
    count := cart.Len();
  }

  /** The same steps with `Clear`: the instance counts 0 after clearing. */
  method ClearedInstanceIsEmpty() returns (count: nat)
    ensures count == 0
  {
    var p1 := Shop.Product(1, "P1", "p1", 1000, true, 1, Some(1));
    var p2 := Shop.Product(2, "P2", "p2", 550, true, 1, Some(1));
    var session := new Session(null, None);
    var cart := new Cart(session);
    cart.Add(p1, 2, false);
    cart.Add(p2, 1, false);
    cart.Remove(p2);
    cart.Clear();
    count := cart.Len();
  }
}

=== FILE: checkout.dfy ===
/** `order_create` of orders/views.py: turn the session cart into an order.

    An empty cart sends the customer back to the cart page. A valid POST
    saves the order (owned by the signed-in user, if any), creates one order
    item per enumerated cart line from the line's price snapshot, clears the
    cart, triggers the order confirmation and remembers the order in the
    session for the payment step. Anything else renders the form. Whether the
    submitted form is valid is an input. */
module Checkout {
  import opened Base
  import Orders
  import Db
  import CartStore

  datatype FormResult = Invalid | Valid(customer: Orders.Customer)

  datatype CreateOutcome =
    | RedirectToCart                   // redirect("cart:cart_detail")
    | RenderForm                       // the form page, with or without errors
    | RedirectToPayment(order: OrderId) // redirect("payment:process")

  /** The order items made from the enumerated cart lines, in order. */
  function NewItems(id: OrderId, lines: seq<CartStore.CartItem>): (r: seq<Orders.OrderItem>)
    ensures |r| == |lines|
    ensures forall i :: 0 <= i < |r| ==>
              r[i].order == id && r[i].product == lines[i].product &&
              r[i].price == lines[i].price && r[i].quantity == lines[i].quantity
  {
    if lines == [] then []
    else
      var last := lines[|lines| - 1];
      NewItems(id, lines[..|lines| - 1]) + [Orders.OrderItem(id, last.product, last.price, last.quantity)]
  }

  /** The order items cost what the cart lines total: each item costs its
      line's `total_price`. */
  lemma {:induction false} NewItemsCost(id: OrderId, lines: seq<CartStore.CartItem>)
    requires forall i :: 0 <= i < |lines| ==> lines[i].totalPrice == lines[i].price * lines[i].quantity
    ensures Orders.TotalCost(NewItems(id, lines)) == CartStore.SumTotals(lines)
    decreases |lines|
  {
    if lines != [] {
      var init := lines[..|lines| - 1];
      assert NewItems(id, lines)[..|lines| - 1] == NewItems(id, init);
      NewItemsCost(id, init);
    }
  }

  /** Every line of an enumeration carries `price * quantity` as its total. */
  lemma EnumeratedTotals(keys: seq<ProductId>, lines: map<ProductId, CartStore.Line>, catalog: CartStore.Catalog)
    requires CartStore.WellFormed(keys, lines)
    ensures var e := CartStore.Enumerate(keys, lines, catalog);
            forall i :: 0 <= i < |e| ==> e[i].totalPrice == e[i].price * e[i].quantity
  {
    var e := CartStore.Enumerate(keys, lines, catalog);
    forall i | 0 <= i < |e| ensures e[i].totalPrice == e[i].price * e[i].quantity {
      CartStore.EnumerateAt(keys, lines, catalog, i);
    }
  }

  /** The loop that persists the line items of a new order. */
  method CreateItems(store: Db.Store, id: OrderId, lines: seq<CartStore.CartItem>)
    requires store.Valid() && id in store.orders
    modifies store
    ensures store.Valid()
    ensures store.items == old(store.items) + NewItems(id, lines)
    ensures store.orders == old(store.orders) && store.nextId == old(store.nextId) && store.notices == old(store.notices)
  {
    var i := 0;
    while i < |lines|
      invariant 0 <= i <= |lines|
      invariant store.Valid() && id in store.orders
      invariant store.items == old(store.items) + NewItems(id, lines[..i])
      invariant store.orders == old(store.orders) && store.nextId == old(store.nextId) && store.notices == old(store.notices)
    {
      assert lines[..i + 1][..i] == lines[..i];
      store.InsertItem(Orders.OrderItem(id, lines[i].product, lines[i].price, lines[i].quantity));
      i := i + 1;
    }
    assert lines[..|lines|] == lines;
  }

  /** Save the order and attach the signed-in user, if any. */
  method SaveNewOrder(store: Db.Store, customer: Orders.Customer, user: Option<UserId>) returns (id: OrderId)
    requires store.Valid()
    modifies store
    ensures store.Valid()
    ensures id == old(store.nextId) && id !in old(store.orders) && store.nextId == id + 1
    ensures store.orders == old(store.orders)[id := Orders.NewOrder(id, customer).(user := user)]
    ensures store.items == old(store.items) && store.notices == old(store.notices)
  {
    id := store.InsertOrder(customer);
    if user.Some? {
      store.SaveOrder(store.orders[id].(user := user));
    }
  }

  method OrderCreate(
    store: Db.Store, session: CartStore.Session, catalog: CartStore.Catalog,
    httpMethod: HttpMethod, form: FormResult, user: Option<UserId>)
    returns (outcome: CreateOutcome)
    requires store.Valid()
    requires session.cart != null ==> session.cart.Valid()
    modifies store, session, session.cart
    ensures store.Valid()
    ensures outcome.RedirectToCart? <==> old(CartStore.StoredCount(session)) == 0
    ensures outcome.RenderForm? <==>
              old(CartStore.StoredCount(session)) > 0 && (httpMethod == Get || form.Invalid?)
    ensures !outcome.RedirectToPayment? ==>
              && store.orders == old(store.orders) && store.items == old(store.items)
              && store.nextId == old(store.nextId) && store.notices == old(store.notices)
              && session.orderId == old(session.orderId)
    ensures !outcome.RedirectToPayment? ==>
              && session.cart != null && session.cart.Valid()
              && (old(session.cart) != null && old(session.cart.keys) != [] ==>
                    && session.cart == old(session.cart)
                    && session.cart.keys == old(session.cart.keys) && session.cart.lines == old(session.cart.lines)
                    && session.modified == old(session.modified))
              && (old(session.cart) == null || old(session.cart.keys) == [] ==>
                    fresh(session.cart) && session.cart.keys == [] && session.cart.lines == map[] && session.modified)
    ensures outcome.RedirectToPayment? ==>
              && old(session.cart) != null
              && var id := outcome.order;
                 var lines := CartStore.Enumerate(old(session.cart.keys), old(session.cart.lines), catalog);
                 && id == old(store.nextId) && id !in old(store.orders)
                 && store.orders == old(store.orders)[id := Orders.NewOrder(id, form.customer).(user := user)]
                 && store.items == old(store.items) + NewItems(id, lines)
                 && Orders.GetTotalCost(store.items, id) == CartStore.SumTotals(lines)
                 && store.notices == old(store.notices) + [Db.OrderCreated(id)]
                 && session.orderId == Some(id) && session.cart == null && session.modified
  {
    var cart := new CartStore.Cart(session);
    if cart.Len() == 0 {
      return RedirectToCart;
    }
    if httpMethod == Post && form.Valid? {
      assert old(session.cart) != null && cart.data == old(session.cart);
      assert cart.data.keys == old(session.cart.keys) && cart.data.lines == old(session.cart.lines);
      var id := PlaceOrder(store, cart, catalog, form.customer, user);
      return RedirectToPayment(id);
    }
    return RenderForm;
  }

  /** The valid-POST branch of `order_create`: save the order, persist one
      item per enumerated cart line, clear the cart, trigger the confirmation
      and remember the order in the session. */
  method PlaceOrder(
    store: Db.Store, cart: CartStore.Cart, catalog: CartStore.Catalog,
    customer: Orders.Customer, user: Option<UserId>)
    returns (id: OrderId)
    requires store.Valid() && cart.Valid()
    modifies store, cart.data, cart.session
    ensures store.Valid()
    ensures var lines := CartStore.Enumerate(old(cart.data.keys), old(cart.data.lines), catalog);
            && id == old(store.nextId) && id !in old(store.orders)
            && store.orders == old(store.orders)[id := Orders.NewOrder(id, customer).(user := user)]
            && store.items == old(store.items) + NewItems(id, lines)
            && Orders.GetTotalCost(store.items, id) == CartStore.SumTotals(lines)
            && store.notices == old(store.notices) + [Db.OrderCreated(id)]
    ensures cart.session.orderId == Some(id) && cart.session.cart == null && cart.session.modified
  {
    ghost var keys, lines := cart.data.keys, cart.data.lines;
    ghost var before := store.items;
    id := SaveNewOrder(store, customer, user);
    var enumerated := cart.Items(catalog);
    CreateItems(store, id, enumerated);
    cart.ClearAsWritten();
    store.Notify(Db.OrderCreated(id));
    cart.session.orderId := Some(id);
    cart.session.modified := true;
    EnumeratedTotals(keys, lines, catalog);
    NewItemsCost(id, enumerated);
    Orders.GetTotalCostOfNew(before, NewItems(id, enumerated), id);
  }

  /** A cart whose every product has left the catalog still counts its
      quantities, so a valid POST creates an order, but the order has no
      items and costs 0. */
  lemma StaleCartMakesEmptyOrder(keys: seq<ProductId>, lines: map<ProductId, CartStore.Line>, catalog: CartStore.Catalog, id: OrderId)
    requires CartStore.WellFormed(keys, lines)
    requires forall k :: k in keys ==> k !in catalog
    ensures NewItems(id, CartStore.Enumerate(keys, lines, catalog)) == []
    ensures Orders.TotalCost(NewItems(id, CartStore.Enumerate(keys, lines, catalog))) == 0
  {
    FilterKeepsNone(keys, (k: ProductId) => k in catalog);
  }
}

=== FILE: contact.dfy ===
/** The contact form of shop/forms.py: a required name of at most 100
    characters, a required e-mail address, a required message and an
    optional hidden "website" field that people leave empty and bots fill
    in. Each text field is stripped of surrounding whitespace before it is
    checked; a filled-in website rejects the submission with
    "Invalid submission.". Whether a text is a well-formed e-mail address is
    an input. */
module Contact {
  import opened Base

  const NameMaxLength: nat := 100
  const HoneypotMessage: string := "Invalid submission."

  datatype Field = Name | Email | Message | Website

  datatype FieldError =
    | Required                          // "This field is required."
    | TooLong(limit: nat, length: nat)  // "Ensure this value has at most ..."
    | InvalidEmail                      // "Enter a valid email address."
    | Rejected(message: string)         // raised by a clean_<field> method

  datatype Cleaned = Cleaned(name: string, email: string, message: string, website: string)

  datatype ContactResult = Accepted(data: Cleaned) | Errors(errors: seq<(Field, FieldError)>)

  /** Python's `str.isspace()` for one character. */
  predicate IsSpace(c: char)
  {
    || ('\t' <= c <= '\r')
    || ('\U{1C}' <= c <= '\U{1F}')
    || c == ' ' || c == '\U{85}' || c == '\U{A0}' || c == '\U{1680}'
    || ('\U{2000}' <= c <= '\U{200A}')
    || c == '\U{2028}' || c == '\U{2029}' || c == '\U{202F}' || c == '\U{205F}' || c == '\U{3000}'
  }

  /** The first index at or after `i` that does not hold whitespace. */
  function SkipSpaces(s: string, i: nat): (k: nat)
    requires i <= |s|
    ensures i <= k <= |s|
    ensures forall j :: i <= j < k ==> IsSpace(s[j])
    ensures k < |s| ==> !IsSpace(s[k])
    decreases |s| - i
  {
    if i < |s| && IsSpace(s[i]) then SkipSpaces(s, i + 1) else i
  }

  /** The end of `s[lo..hi]` once its trailing whitespace is dropped. */
  function TrimEnd(s: string, lo: nat, hi: nat): (k: nat)
    requires lo <= hi <= |s|
    ensures lo <= k <= hi
    ensures forall j :: k <= j < hi ==> IsSpace(s[j])
    ensures k > lo ==> !IsSpace(s[k - 1])
    decreases hi
  {
    if hi > lo && IsSpace(s[hi - 1]) then TrimEnd(s, lo, hi - 1) else hi
  }

  /** `str.strip()`: the text without its leading and trailing whitespace. */
  function Strip(s: string): (r: string)
    ensures r == [] <==> forall i :: 0 <= i < |s| ==> IsSpace(s[i])
    ensures r != [] ==> !IsSpace(r[0]) && !IsSpace(r[|r| - 1])
    ensures |r| <= |s|
  {
    var start := SkipSpaces(s, 0);
    var end := TrimEnd(s, start, |s|);
    assert start == end ==> forall i :: 0 <= i < |s| ==> IsSpace(s[i]);
    assert start < end ==> !IsSpace(s[start]);
    s[start..end]
  }

  /** The stripped text is the text minus a whitespace prefix and a
      whitespace suffix; `start` is where it begins. */
  lemma StripIsInfix(s: string) returns (start: nat)
    ensures start + |Strip(s)| <= |s| && Strip(s) == s[start..start + |Strip(s)|]
    ensures forall j :: 0 <= j < start ==> IsSpace(s[j])
    ensures forall j :: start + |Strip(s)| <= j < |s| ==> IsSpace(s[j])
  {
    start := SkipSpaces(s, 0);
    var end := TrimEnd(s, start, |s|);
    assert Strip(s) == s[start..end];
  }

  /** Stripping twice is stripping once. */
  lemma StripIdempotent(s: string)
    ensures Strip(Strip(s)) == Strip(s)
  {
    var r := Strip(s);
    if r != [] {
      assert SkipSpaces(r, 0) == 0;
      assert TrimEnd(r, 0, |r|) == |r|;
      assert r[0..|r|] == r;
    }
  }

  /** A text field's value: absent is "", otherwise the stripped text. */
  function FieldValue(raw: Option<string>): (v: string)
    ensures raw.None? ==> v == ""
    ensures raw.Some? ==> v == Strip(raw.value)
  {
    if raw.None? then "" else Strip(raw.value)
  }

  /** `name = CharField(max_length=100)`. */
  function NameErrors(v: string): (r: seq<FieldError>)
    ensures r == [] <==> 1 <= |v| <= NameMaxLength
    ensures v == "" ==> r == [Required]
    ensures |v| > NameMaxLength ==> r == [TooLong(NameMaxLength, |v|)]
  {
    if v == "" then [Required]
    else if |v| > NameMaxLength then [TooLong(NameMaxLength, |v|)]
    else []
  }

  /** `email = EmailField()`. */
  function EmailErrors(v: string, isEmail: string -> bool): (r: seq<FieldError>)
    ensures r == [] <==> v != "" && isEmail(v)
  {
    if v == "" then [Required] else if !isEmail(v) then [InvalidEmail] else []
  }

  /** `message = CharField(widget=Textarea)`. */
  function MessageErrors(v: string): (r: seq<FieldError>)
    ensures r == [] <==> v != ""
  {
    if v == "" then [Required] else []
  }

  /** `clean_website()`: a filled-in honeypot is rejected; otherwise the value
      is kept as it is. The field itself is optional, so it has no other
      check. */
  function CleanWebsite(v: string): (r: Result)
    ensures r.Err? <==> v != ""
    ensures r.Err? ==> r.error == Rejected(HoneypotMessage)
    ensures r.Ok? ==> r.value == v
  {
    if v != "" then Err(Rejected(HoneypotMessage)) else Ok(v)
  }

  datatype Result = Ok(value: string) | Err(error: FieldError)

  function Tag(f: Field, errors: seq<FieldError>): (r: seq<(Field, FieldError)>)
    ensures |r| == |errors|
    ensures forall i :: 0 <= i < |r| ==> r[i] == (f, errors[i])
  {
    if errors == [] then [] else Tag(f, errors[..|errors| - 1]) + [(f, errors[|errors| - 1])]
  }

  /** The errors of the four fields, in declaration order. */
  function FormErrors(n: string, e: string, m: string, w: string, isEmail: string -> bool): (r: seq<(Field, FieldError)>)
    ensures r == [] <==> 1 <= |n| <= NameMaxLength && e != "" && isEmail(e) && m != "" && w == ""
    ensures (Website, Rejected(HoneypotMessage)) in r <==> w != ""
  {
    var website := CleanWebsite(w);
    var websiteErrors := if website.Err? then [website.error] else [];
    var others := Tag(Name, NameErrors(n)) + Tag(Email, EmailErrors(e, isEmail)) + Tag(Message, MessageErrors(m));
    assert forall i :: 0 <= i < |others| ==> others[i].0 != Website;
    assert website.Ok? ==> (Website, Rejected(HoneypotMessage)) !in others;
    others + Tag(Website, websiteErrors)
  }

  /** `ContactForm(data).is_valid()` and its `cleaned_data` or its errors.
      Absent fields count as empty; `website` is kept as cleaned, which is ""
      whenever the form is accepted. */
  function CleanContact(
    name: Option<string>, email: Option<string>, message: Option<string>, website: Option<string>,
    isEmail: string -> bool): (r: ContactResult)
    ensures r.Accepted? <==>
              && 1 <= |FieldValue(name)| <= NameMaxLength
              && FieldValue(email) != "" && isEmail(FieldValue(email))
              && FieldValue(message) != ""
              && FieldValue(website) == ""
    ensures r.Accepted? ==>
              r.data == Cleaned(FieldValue(name), FieldValue(email), FieldValue(message), "")
    ensures r.Errors? ==> r.errors != []
    ensures r.Errors? ==> ((Website, Rejected(HoneypotMessage)) in r.errors <==> FieldValue(website) != "")
  {
    var n, e, m, w := FieldValue(name), FieldValue(email), FieldValue(message), FieldValue(website);
    var errors := FormErrors(n, e, m, w, isEmail);
    if errors == [] then Accepted(Cleaned(n, e, m, w)) else Errors(errors)
  }
}

=== FILE: db.dfy ===
/** The order tables as the views see them: orders by id, order items in
    insertion order, the next id the database hands out, and the log of
    notifications the views trigger (order confirmation, payment received).
    Each method is one ORM call. */
module Db {
  import opened Base
  import Orders

  /** A triggered notification task. */
  datatype Notice = OrderCreated(order: OrderId) | PaymentCompleted(order: OrderId)

  class Store {
    var orders: map<OrderId, Orders.Order>
    var items: seq<Orders.OrderItem>
    var nextId: OrderId
    var notices: seq<Notice>

    /** Ids are positive, below the next id and match their row; every item
        belongs to a stored order. */
    ghost predicate Valid()
      reads this
    {
      && nextId >= 1
      && (forall k :: k in orders ==> 1 <= k < nextId && orders[k].id == k)
      && (forall i :: i in items ==> i.order in orders)
    }

    constructor ()
      ensures Valid() && orders == map[] && items == [] && nextId == 1 && notices == []
    {
      orders := map[];
      items := [];
      nextId := 1;
      notices := [];
    }

    /** `form.save()`: a new order row with a fresh id and the field defaults. */
    method InsertOrder(customer: Orders.Customer) returns (id: OrderId)
      requires Valid()
      modifies this
      ensures Valid()
      ensures id == old(nextId) && id !in old(orders) && nextId == id + 1
      ensures orders == old(orders)[id := Orders.NewOrder(id, customer)]
      ensures items == old(items) && notices == old(notices)
    {
      id := nextId;
      orders := orders[id := Orders.NewOrder(id, customer)];
      nextId := nextId + 1;
    }

    /** `order.save(...)` of an order already stored. */
    method SaveOrder(o: Orders.Order)
      requires Valid() && o.id in orders
      modifies this
      ensures Valid()
      ensures orders == old(orders)[o.id := o]
      ensures items == old(items) && nextId == old(nextId) && notices == old(notices)
    {
      orders := orders[o.id := o];
    }

    /** `OrderItem.objects.create(...)`. */
    method InsertItem(item: Orders.OrderItem)
      requires Valid() && item.order in orders
      modifies this
      ensures Valid()
      ensures items == old(items) + [item]
      ensures orders == old(orders) && nextId == old(nextId) && notices == old(notices)
    {
      items := items + [item];
    }

    /** Trigger a notification task (sent at once or queued alike). */
    method Notify(n: Notice)
      modifies this
      ensures notices == old(notices) + [n]
      ensures orders == old(orders) && items == old(items) && nextId == old(nextId)
    {
      notices := notices + [n];
    }
  }
}

=== FILE: money.dfy ===
/** Exact money and the text forms it takes.

    Prices are two-place decimals; the model counts them in integer pence.
    The cart keeps a price as the text `str(price)` (e.g. "10.00") and reads it
    back with `Decimal(...)`; order ids travel to the payment provider as
    `str(order.id)` and come back as text that the ORM turns into an integer;
    the provider wants `int(Decimal(price) * 100)` minor units. */
module Money {
  import opened Base

  predicate IsDigit(c: char)
  {
    '0' <= c <= '9'
  }

  predicate AllDigits(s: string)
  {
    forall i :: 0 <= i < |s| ==> IsDigit(s[i])
  }

  function DigitChar(d: nat): (c: char)
    requires d < 10
    ensures IsDigit(c)
  {
    (('0' as int) + d) as char
  }

  function DigitValue(c: char): (d: nat)
    requires IsDigit(c)
    ensures d < 10
  {
    (c as int) - ('0' as int)
  }

  /** Python's `str(n)` for a non-negative integer: decimal digits, no leading zero. */
  function NatToString(n: nat): (s: string)
    ensures 1 <= |s| && AllDigits(s)
    ensures s[0] == '0' ==> n == 0 && s == "0"
    decreases n
  {
    if n < 10 then [DigitChar(n)] else NatToString(n / 10) + [DigitChar(n % 10)]
  }

  /** The value of a string of decimal digits (leading zeros allowed). */
  function DigitsValue(s: string): nat
    requires AllDigits(s)
  {
    if s == [] then 0 else DigitsValue(s[..|s| - 1]) * 10 + DigitValue(s[|s| - 1])
  }

  /** `int(s)` restricted to what this model accepts as a number: an optional
      sign followed by at least one decimal digit. */
  function ParseInt(s: string): (r: Option<int>)
    ensures r.Some? <==>
              (|s| >= 1 && AllDigits(s)) ||
              (|s| >= 2 && (s[0] == '-' || s[0] == '+') && AllDigits(s[1..]))
    ensures |s| >= 1 && AllDigits(s) ==> r == Some(DigitsValue(s))
  {
    if |s| >= 1 && AllDigits(s) then Some(DigitsValue(s))
    else if |s| >= 2 && s[0] == '-' && AllDigits(s[1..]) then Some(0 - DigitsValue(s[1..]) as int)
    else if |s| >= 2 && s[0] == '+' && AllDigits(s[1..]) then Some(DigitsValue(s[1..]))
    else None
  }

  lemma {:induction false} DigitsValueOfNatToString(n: nat)
    ensures DigitsValue(NatToString(n)) == n
    decreases n
  {
    var s := NatToString(n);
    if n >= 10 {
      DigitsValueOfNatToString(n / 10);
      assert s[..|s| - 1] == NatToString(n / 10);
    }
  }

  /** Reading back the text of an id gives the id: `int(str(n)) == n`. */
  lemma ParseIntOfNatToString(n: nat)
    ensures ParseInt(NatToString(n)) == Some(n)
  {
    DigitsValueOfNatToString(n);
  }

  /** Position of the first '.' in `s`, or `|s|` when there is none. */
  function DotIndex(s: string): (k: nat)
    ensures k <= |s|
    ensures k < |s| ==> s[k] == '.'
    ensures forall i :: 0 <= i < k ==> s[i] != '.'
  {
    if s == [] then 0
    else if s[0] == '.' then 0
    else 1 + DotIndex(s[1..])
  }

  /** `str(price)` of a two-place decimal price of `p` pence, e.g. 1050 -> "10.50". */
  function FormatPence(p: nat): (s: string)
  {
    NatToString(p / 100) + "." + [DigitChar(p % 100 / 10), DigitChar(p % 10)]
  }

  /** `Decimal(s)` read as pence: whole units, optionally a point and one or two
      fraction digits; any other text is not a price of whole pence. */
  function ParsePence(s: string): (r: Option<nat>)
    ensures r.Some? ==> DotIndex(s) >= 1 && AllDigits(s[..DotIndex(s)])
    ensures r.Some? ==> DotIndex(s) == |s| || (2 <= |s| - DotIndex(s) <= 3 && AllDigits(s[DotIndex(s) + 1..]))
  {
    var k := DotIndex(s);
    var whole := s[..k];
    if k == 0 || !AllDigits(whole) then None
    else if k == |s| then Some(DigitsValue(whole) * 100)
    else
      var frac := s[k + 1..];
      if |frac| == 1 && IsDigit(frac[0]) then
        Some(DigitsValue(whole) * 100 + DigitValue(frac[0]) * 10)
      else if |frac| == 2 && IsDigit(frac[0]) && IsDigit(frac[1]) then
        Some(DigitsValue(whole) * 100 + DigitValue(frac[0]) * 10 + DigitValue(frac[1]))
      else None
  }

  /** The price snapshot survives its trip through text: `Decimal(str(price)) == price`. */
  lemma FormatPenceRoundTrip(p: nat)
    ensures ParsePence(FormatPence(p)) == Some(p)
  {
    var w := NatToString(p / 100);
    var s := FormatPence(p);
    assert s == w + ['.', DigitChar(p % 100 / 10), DigitChar(p % 10)];
    assert forall i :: 0 <= i < |w| ==> s[i] == w[i] && s[i] != '.';
    assert DotIndex(s) == |w| by {
      DotIndexAt(s, |w|);
    }
    assert s[..|w|] == w;
    assert s[|w| + 1..] == [DigitChar(p % 100 / 10), DigitChar(p % 10)];
    DigitsValueOfNatToString(p / 100);
  }

  lemma DotIndexAt(s: string, k: nat)
    requires k < |s| && s[k] == '.'
    requires forall i :: 0 <= i < k ==> s[i] != '.'
    ensures DotIndex(s) == k
  {
  }

  /** A decimal number `coefficient × 10^-exponent`, as Python's `Decimal` holds it. */
  datatype Decimal = Decimal(coefficient: int, exponent: nat)

  function Pow10(e: nat): (r: nat)
    ensures r >= 1
  {
    if e == 0 then 1 else 10 * Pow10(e - 1)
  }

  /** Integer division truncating toward zero, as Python's `int()` of a quotient. */
  function TruncDiv(a: int, b: nat): (q: int)
    requires b > 0
    ensures a >= 0 ==> q >= 0 && q * b <= a < q * b + b
    ensures a < 0 ==> q <= 0 && q * b >= a > q * b - b
  {
    if a >= 0 then a / b else -((-a) / b)
  }

  /** `int(d * 100)`: the amount in hundredths, truncated toward zero. */
  function Hundredths(d: Decimal): (r: int)
  {
    TruncDiv(d.coefficient * 100, Pow10(d.exponent))
  }

  /** A two-place price converts to exactly its pence. */
  lemma HundredthsOfPence(p: int)
    ensures Hundredths(Decimal(p, 2)) == p
  {
    assert Pow10(2) == 100;
  }

  /** More than two places are truncated toward zero, not rounded or floored:
      1.999 gives 199 and -1.999 gives -199. */
  lemma HundredthsTruncates()
    ensures Hundredths(Decimal(1999, 3)) == 199
    ensures Hundredths(Decimal(-1999, 3)) == -199
  {
    assert Pow10(3) == 1000;
  }
}

=== FILE: orders.dfy ===
/** The order records of orders/models.py: an order with its customer
    details, payment flag, payment reference and optional owner; its items
    with their price snapshots; the line cost and order total; and the link
    to the order in the payment dashboard. Money is in pence. */
module Orders {
  import opened Base
  import Shop

  datatype Customer = Customer(
    firstName: string,
    lastName: string,
    email: string,
    address: string,
    postalCode: string,
    city: string)

  datatype Order = Order(
    id: OrderId,
    customer: Customer,
    paid: bool,
    stripeId: Option<string>,   // the payment reference; null when none
    user: Option<UserId>)       // null for a guest order

  /** An order line; `product` is the row the foreign key resolves to. */
  datatype OrderItem = OrderItem(order: OrderId, product: Shop.Product, price: nat, quantity: nat)

  /** A freshly saved order: not paid, no payment reference, no owner. */
  function NewOrder(id: OrderId, customer: Customer): (o: Order)
    ensures o.id == id && o.customer == customer
    ensures !o.paid && o.stripeId == None && o.user == None
  {
    Order(id, customer, false, None, None)
  }

  /** `OrderItem.get_cost()`. */
  function GetCost(item: OrderItem): (r: nat)
    ensures r == 0 <==> item.price == 0 || item.quantity == 0
  {
    item.price * item.quantity
  }

  /** The sum of the line costs, starting from 0. */
  function TotalCost(items: seq<OrderItem>): (r: nat)
  {
    if items == [] then 0 else TotalCost(items[..|items| - 1]) + GetCost(items[|items| - 1])
  }

  /** The items of one order, in table order (`order.items.all()`). */
  function ItemsOf(items: seq<OrderItem>, id: OrderId): (r: seq<OrderItem>)
    ensures forall i :: i in r <==> i in items && i.order == id
  {
    Filter(items, (i: OrderItem) => i.order == id)
  }

  /** `Order.get_total_cost()`. */
  function GetTotalCost(items: seq<OrderItem>, id: OrderId): (r: nat)
    ensures (forall i :: i in items ==> i.order != id) ==> r == 0
  {
    var own := ItemsOf(items, id);
    assert own != [] ==> own[0] in own;
    TotalCost(own)
  }

  lemma {:induction false} TotalCostAppend(a: seq<OrderItem>, b: seq<OrderItem>)
    ensures TotalCost(a + b) == TotalCost(a) + TotalCost(b)
    decreases |b|
  {
    if b == [] {
      assert a + b == a;
    } else {
      var b' := b[..|b| - 1];
      assert (a + b)[..|a + b| - 1] == a + b';
      TotalCostAppend(a, b');
    }
  }

  /** The total is 0 exactly when every line costs 0 (in particular for an
      order without items), and it is never below any one line's cost. */
  lemma {:induction false} TotalCostBounds(items: seq<OrderItem>)
    ensures TotalCost(items) == 0 <==> forall i :: i in items ==> GetCost(i) == 0
    ensures forall i :: i in items ==> GetCost(i) <= TotalCost(items)
    decreases |items|
  {
    if items != [] {
      var init := items[..|items| - 1];
      TotalCostBounds(init);
      assert items == init + [items[|items| - 1]];
    }
  }

  /** Items of other orders do not count towards an order's total, and the
      items added for a new order make up its whole total. */
  lemma GetTotalCostOfNew(existing: seq<OrderItem>, added: seq<OrderItem>, id: OrderId)
    requires forall i :: i in existing ==> i.order != id
    requires forall i :: i in added ==> i.order == id
    ensures GetTotalCost(existing + added, id) == TotalCost(added)
  {
    FilterAppend(existing, added, (i: OrderItem) => i.order == id);
    FilterKeepsAll(added, (i: OrderItem) => i.order == id);
    FilterKeepsNone(existing, (i: OrderItem) => i.order == id);
    assert [] + added == added;
  }

  /** orders/tests/test_models.py: no items cost 0.00; three at 9.99 cost 29.97. */
  lemma TotalCostExamples(id: OrderId, p: Shop.Product)
    ensures GetTotalCost([], id) == 0
    ensures GetTotalCost([OrderItem(id, p, 999, 3)], id) == 2997
  {
    var one := [OrderItem(id, p, 999, 3)];
    FilterKeepsAll(one, (i: OrderItem) => i.order == id);
    assert one[..0] == [];
  }

  // ----- the dashboard link -----

  const DashboardBase: string := "https://dashboard.stripe.com"

  /** The dashboard origin, with "/test" when the secret key is a test key. */
  function DashboardRoot(secretKey: string): string
  {
    if StartsWith(secretKey, "sk_test_") then DashboardBase + "/test" else DashboardBase
  }

  /** The dashboard path of a reference: payment intents ("pi_") and anything
      unrecognised under "/payments/", checkout sessions ("cs_") under
      "/checkouts/sessions/". */
  function DashboardPath(sid: string): string
  {
    if StartsWith(sid, "pi_") then "/payments/" + sid
    else if StartsWith(sid, "cs_") then "/checkouts/sessions/" + sid
    else "/payments/" + sid
  }

  /** `Order.get_stripe_url()`. */
  function GetStripeUrl(secretKey: string, stripeId: Option<string>): (r: string)
    ensures r == "" <==> !Truthy(stripeId)
  {
    if !Truthy(stripeId) then "" else DashboardRoot(secretKey) + DashboardPath(stripeId.value)
  }

  /** The link starts at the dashboard origin, has "/test/" right after it
      exactly for a test key, and ends with "/checkouts/sessions/" and the
      reference for a checkout session, "/payments/" and the reference for
      anything else. */
  lemma GetStripeUrlShape(secretKey: string, stripeId: Option<string>)
    requires Truthy(stripeId)
    ensures var r := GetStripeUrl(secretKey, stripeId);
            && StartsWith(r, DashboardBase)
            && EndsWith(r, stripeId.value)
            && (StartsWith(r, DashboardBase + "/test/") <==> StartsWith(secretKey, "sk_test_"))
            && (StartsWith(stripeId.value, "cs_") ==> EndsWith(r, "/checkouts/sessions/" + stripeId.value))
            && (!StartsWith(stripeId.value, "cs_") ==> EndsWith(r, "/payments/" + stripeId.value))
  {
    var sid := stripeId.value;
    var root := DashboardRoot(secretKey);
    var path := DashboardPath(sid);
    UrlParts(root, path, sid);
    TestSegment(secretKey, path);
  }

  lemma UrlParts(root: string, path: string, sid: string)
    requires StartsWith(root, DashboardBase)
    requires path == "/payments/" + sid || path == "/checkouts/sessions/" + sid
    ensures StartsWith(root + path, DashboardBase)
    ensures EndsWith(root + path, sid) && EndsWith(root + path, path)
  {
    assert (root + path)[..|DashboardBase|] == root[..|DashboardBase|];
    assert (root + path)[|root + path| - |path|..] == path;
    assert (root + path)[|root + path| - |sid|..] == path[|path| - |sid|..];
  }

  /** The "/test/" segment follows the origin exactly for a test key. */
  lemma TestSegment(secretKey: string, path: string)
    requires |path| >= 1 && path[0] == '/'
    requires StartsWith(path, "/payments/") || StartsWith(path, "/checkouts/sessions/")
    ensures StartsWith(DashboardRoot(secretKey) + path, DashboardBase + "/test/") <==> StartsWith(secretKey, "sk_test_")
  {
    var r := DashboardRoot(secretKey) + path;
    var t := DashboardBase + "/test/";
    if StartsWith(secretKey, "sk_test_") {
      assert r[..|t|] == t;
    } else {
      assert r[|DashboardBase| + 1] == path[1];
      assert t[|DashboardBase| + 1] == 't';
      assert path[..10] == "/payments/" || path[..20] == "/checkouts/sessions/";
      assert path[1] == 'p' || path[1] == 'c';
    }
  }

  /** orders/tests/test_models.py: with a test key a payment intent links
      under "/test/payments/" ... */
  lemma GetStripeUrlPaymentIntent()
    ensures GetStripeUrl("sk_test_123", Some("pi_12345")) == "https://dashboard.stripe.com/test/payments/pi_12345"
  {
    TestKeyRoot();
    assert DashboardPath("pi_12345") == "/payments/pi_12345" by {
      assert "pi_12345"[..3] == "pi_";
    }
  }

  /** ... a checkout session under "/test/checkouts/sessions/" ... */
  lemma GetStripeUrlCheckoutSession()
    ensures GetStripeUrl("sk_test_123", Some("cs_98765")) == "https://dashboard.stripe.com/test/checkouts/sessions/cs_98765"
  {
    TestKeyRoot();
    assert DashboardPath("cs_98765") == "/checkouts/sessions/cs_98765" by {
      assert "cs_98765"[..3][0] == 'c';
      assert "cs_98765"[..3] == "cs_";
    }
  }

  lemma TestKeyRoot()
    ensures DashboardRoot("sk_test_123") == "https://dashboard.stripe.com/test"
  {
    assert "sk_test_123"[..8] == "sk_test_";
  }

  /** With a live key there is no "/test", and an unknown prefix falls back to
      "/payments/". */
  lemma GetStripeUrlLiveKey()
    ensures GetStripeUrl("sk_live_1", Some("ch_1")) == "https://dashboard.stripe.com/payments/ch_1"
  {
    assert DashboardRoot("sk_live_1") == DashboardBase by {
      assert "sk_live_1"[..8][3] == 'l';
    }
    assert DashboardPath("ch_1") == "/payments/ch_1" by {
      assert "ch_1"[..3][0] == 'c' && "ch_1"[..3][1] == 'h';
    }
  }
}

=== FILE: payment.dfy ===
/** `payment_process` of payment/views.py: the payment step for the order the
    session remembers.

    Without a remembered order the customer goes back to order creation; an
    unknown order is a 404; a GET shows the summary. A POST builds the
    provider's checkout request (one line item per order item, amounts in
    minor units, the order id as the client reference and in the metadata)
    and either redirects to the provider's page or, when the provider call
    fails, shows the summary with the error text. The view writes nothing.
    The provider call is an input: what it answers to the request.

    The redirect is written `redirect(session.url, code=303)`, but Django's
    `redirect` has no `code` parameter: the keyword only reaches URL reversal,
    which fails and falls back to the URL itself, and the response is the
    plain 302 Found. `PaymentProcess` models that; `PaymentProcessSeeOther`
    is the evidently intended 303 See Other. */
module Payment {
  import opened Base
  import Money
  import Orders
  import Db

  /** The currency used when the setting is absent. */
  const DefaultCurrency: string := "gbp"

  /** The 302 Found status of a non-permanent Django redirect. */
  const Found: nat := 302

  /** The 301 Moved Permanently status of a permanent Django redirect. */
  const MovedPermanently: nat := 301

  /** The 303 See Other status the redirect to the provider was meant to have. */
  const SeeOther: nat := 303

  datatype LineItem = LineItem(unitAmount: int, currency: string, productName: string, quantity: nat)

  datatype CheckoutRequest = CheckoutRequest(
    mode: string,
    lineItems: seq<LineItem>,
    clientReferenceId: string,
    metadataOrderId: string)

  /** What `Session.create` does with the request: a session with its page
      URL, or an exception with its text. */
  datatype ProviderReply = Created(url: string) | Failed(message: string)

  datatype PaymentOutcome =
    | RedirectToOrderCreate                             // redirect("orders:order_create")
    | NotFound                                          // 404
    | RenderSummary(order: Orders.Order)                // the page with the pay button
    | RenderError(order: Orders.Order, error: string)   // the page with the provider's error
    | RedirectToProvider(url: string, status: nat)      // redirect(session.url, ...)

  /** `getattr(settings, "STRIPE_CURRENCY", "gbp")`. */
  function Currency(setting: Option<string>): (c: string)
    ensures setting.None? ==> c == DefaultCurrency
    ensures setting.Some? ==> c == setting.value
  {
    if setting.Some? then setting.value else DefaultCurrency
  }

  /** The line item of one order item: `int(Decimal(price) * 100)` minor units. */
  function ToLineItem(item: Orders.OrderItem, currency: string): (l: LineItem)
    ensures l.unitAmount == item.price && l.quantity == item.quantity
    ensures l.currency == currency && l.productName == item.product.name
  {
    Money.HundredthsOfPence(item.price);
    LineItem(Money.Hundredths(Money.Decimal(item.price, 2)), currency, item.product.name, item.quantity)
  }

  /** The line items of the given order items, in order. */
  function LineItems(items: seq<Orders.OrderItem>, currency: string): (r: seq<LineItem>)
    ensures |r| == |items|
    ensures forall i :: 0 <= i < |r| ==> r[i] == ToLineItem(items[i], currency)
  {
    if items == [] then [] else LineItems(items[..|items| - 1], currency) + [ToLineItem(items[|items| - 1], currency)]
  }

  /** The loop that appends one line item per order item. */
  method BuildLineItems(items: seq<Orders.OrderItem>, currency: string) returns (lineItems: seq<LineItem>)
    ensures lineItems == LineItems(items, currency)
  {
    lineItems := [];
    var i := 0;
    while i < |items|
      invariant 0 <= i <= |items|
      invariant lineItems == LineItems(items[..i], currency)
    {
      assert items[..i + 1][..i] == items[..i];
      lineItems := lineItems + [ToLineItem(items[i], currency)];
      i := i + 1;
    }
    assert items[..|items|] == items;
  }

  /** The checkout request for an order and its items. */
  function RequestFor(order: Orders.Order, items: seq<Orders.OrderItem>, currency: string): (r: CheckoutRequest)
  {
    var ref := Money.NatToString(order.id);
    CheckoutRequest("payment", LineItems(items, currency), ref, ref)
  }

  /** The status of Django's `redirect(to, *args, permanent=False, **kwargs)`
      for a URL: it depends on `permanent` alone, so no other keyword (such as
      `code`) can make it a 303. */
  function RedirectStatus(permanent: bool): (status: nat)
    ensures status == Found <==> !permanent
    ensures status == MovedPermanently <==> permanent
    ensures status != SeeOther
  {
    if permanent then MovedPermanently else Found
  }

  /** Python truthiness of the remembered order id: absent or 0 is falsy. */
  predicate HasOrderId(orderId: Option<int>)
  {
    orderId.Some? && orderId.value != 0
  }

  /** `payment_process(request)` as written. `sent` is the request handed to
      the provider, if any was; a created session answers 302 Found. */
  method PaymentProcess(
    store: Db.Store, orderId: Option<int>, httpMethod: HttpMethod,
    currencySetting: Option<string>, reply: ProviderReply)
    returns (outcome: PaymentOutcome, sent: Option<CheckoutRequest>)
    requires store.Valid()
    ensures !HasOrderId(orderId) ==> outcome == RedirectToOrderCreate && sent == None
    ensures HasOrderId(orderId) && (orderId.value < 0 || orderId.value !in store.orders) ==>
              outcome == NotFound && sent == None
    ensures HasOrderId(orderId) && orderId.value >= 0 && orderId.value in store.orders ==>
              var order := store.orders[orderId.value];
              && (httpMethod == Get ==> outcome == RenderSummary(order) && sent == None)
              && (httpMethod == Post ==>
                    && sent == Some(RequestFor(order, Orders.ItemsOf(store.items, order.id), Currency(currencySetting)))
                    && (reply.Created? ==> outcome == RedirectToProvider(reply.url, Found))
                    && (reply.Failed? ==> outcome == RenderError(order, reply.message)))
    ensures outcome.RedirectToProvider? ==> outcome.status != SeeOther
  {
    if !HasOrderId(orderId) {
      return RedirectToOrderCreate, None;
    }
    var id := orderId.value;
    if id < 0 || id !in store.orders {
      return NotFound, None;
    }
    var order := store.orders[id];
    if httpMethod == Post {
      var currency := Currency(currencySetting);
      var lineItems := BuildLineItems(Orders.ItemsOf(store.items, order.id), currency);
      var ref := Money.NatToString(order.id);
      var request := CheckoutRequest("payment", lineItems, ref, ref);
      sent := Some(request);
      match reply {
        case Failed(message) => outcome := RenderError(order, message);
        case Created(url) => outcome := RedirectToProvider(url, RedirectStatus(false));
      }
      return;
    }
    return RenderSummary(order), None;
  }

  /** `payment_process` as evidently intended: the same view, with the
      redirect to the provider's page answered 303 See Other. */
  method PaymentProcessSeeOther(
    store: Db.Store, orderId: Option<int>, httpMethod: HttpMethod,
    currencySetting: Option<string>, reply: ProviderReply)
    returns (outcome: PaymentOutcome, sent: Option<CheckoutRequest>)
    requires store.Valid()
    ensures !HasOrderId(orderId) ==> outcome == RedirectToOrderCreate && sent == None
    ensures HasOrderId(orderId) && (orderId.value < 0 || orderId.value !in store.orders) ==>
              outcome == NotFound && sent == None
    ensures HasOrderId(orderId) && orderId.value >= 0 && orderId.value in store.orders ==>
              var order := store.orders[orderId.value];
              && (httpMethod == Get ==> outcome == RenderSummary(order) && sent == None)
              && (httpMethod == Post ==>
                    && sent == Some(RequestFor(order, Orders.ItemsOf(store.items, order.id), Currency(currencySetting)))
                    && (reply.Created? ==> outcome == RedirectToProvider(reply.url, SeeOther))
                    && (reply.Failed? ==> outcome == RenderError(order, reply.message)))
  {
    outcome, sent := PaymentProcess(store, orderId, httpMethod, currencySetting, reply);
    if outcome.RedirectToProvider? {
      outcome := RedirectToProvider(outcome.url, SeeOther);
    }
  }

  /** The checkout request identifies its order: the client reference and the
      metadata both read back as the order id, the mode is "payment", and line
      item `i` carries item `i`'s quantity and its price in minor units. */
  lemma RequestIdentifiesOrder(order: Orders.Order, items: seq<Orders.OrderItem>, currency: string)
    ensures var r := RequestFor(order, items, currency);
            && r.mode == "payment"
            && Money.ParseInt(r.clientReferenceId) == Some(order.id as int)
            && Money.ParseInt(r.metadataOrderId) == Some(order.id as int)
            && |r.lineItems| == |items|
            && forall i :: 0 <= i < |items| ==>
                 r.lineItems[i].unitAmount == items[i].price && r.lineItems[i].quantity == items[i].quantity
                 && r.lineItems[i].currency == currency
  {
    Money.ParseIntOfNatToString(order.id);
  }

  /** payment/tests/test_views.py: an item at 12.34 twice becomes one line item
      of 1234 minor units, quantity 2, in "gbp" when no currency is set. */
  lemma LineItemExample(p: Orders.OrderItem)
    requires p.price == 1234 && p.quantity == 2
    ensures LineItems([p], Currency(None)) == [LineItem(1234, "gbp", p.product.name, 2)]
  {
  }
}

=== FILE: shop.dfy ===
/** The catalog views of shop/views.py: the product listing with its optional
    category and team filters, the "popular teams" strip, and the product
    detail lookup. The catalog tables are passed in as sequences of rows in
    their default order. */
module Shop {
  import opened Base

  datatype Category = Category(id: CategoryId, name: string, slug: string)
  datatype Team = Team(id: TeamId, name: string, slug: string)
  datatype Product = Product(
    id: ProductId,
    name: string,
    slug: string,
    price: nat,             // pence
    available: bool,
    category: CategoryId,
    team: Option<TeamId>)

  /** How many teams the popular-teams strip shows at most. */
  const PopularTeamsLimit: nat := 8

  // ----- ordering of names -----

  /** Lexicographic order on names (code point by code point). */
  predicate LexLe(a: string, b: string)
    decreases |a|
  {
    a == [] || (b != [] && (a[0] < b[0] || (a[0] == b[0] && LexLe(a[1..], b[1..]))))
  }

  lemma {:induction false} LexLeTotal(a: string, b: string)
    ensures LexLe(a, b) || LexLe(b, a)
    decreases |a|
  {
    if a != [] && b != [] && a[0] == b[0] {
      LexLeTotal(a[1..], b[1..]);
    }
  }

  lemma {:induction false} LexLeTransitive(a: string, b: string, c: string)
    requires LexLe(a, b) && LexLe(b, c)
    ensures LexLe(a, c)
    decreases |a|
  {
    if a != [] && a[0] == b[0] && b[0] == c[0] {
      LexLeTransitive(a[1..], b[1..], c[1..]);
    }
  }

  predicate SortedByName(s: seq<Team>)
  {
    forall i, j :: 0 <= i < j < |s| ==> LexLe(s[i].name, s[j].name)
  }

  function InsertByName(t: Team, s: seq<Team>): (r: seq<Team>)
    requires SortedByName(s)
    ensures SortedByName(r)
    ensures |r| == |s| + 1
    ensures multiset(r) == multiset(s) + multiset{t}
  {
    if s == [] then [t]
    else if LexLe(t.name, s[0].name) then
      FirstIsLeast(t, s);
      [t] + s
    else
      var rest := InsertByName(t, s[1..]);
      LexLeTotal(t.name, s[0].name);
      HeadIsLeast(s, t, rest);
      assert s == [s[0]] + s[1..];
      [s[0]] + rest
  }

  /** A team sorting no later than the first of a sorted sequence can go in front. */
  lemma FirstIsLeast(t: Team, s: seq<Team>)
    requires SortedByName(s) && s != [] && LexLe(t.name, s[0].name)
    ensures SortedByName([t] + s)
  {
    forall j | 0 <= j < |s| ensures LexLe(t.name, s[j].name) {
      if j > 0 { LexLeTransitive(t.name, s[0].name, s[j].name); }
    }
  }

  /** The head of a sorted sequence sorts no later than anything in its tail
      with `t` inserted, so it can stay in front. */
  lemma HeadIsLeast(s: seq<Team>, t: Team, rest: seq<Team>)
    requires SortedByName(s) && s != [] && SortedByName(rest)
    requires LexLe(s[0].name, t.name)
    requires multiset(rest) == multiset(s[1..]) + multiset{t}
    ensures SortedByName([s[0]] + rest)
  {
    forall j | 0 <= j < |rest| ensures LexLe(s[0].name, rest[j].name) {
      assert rest[j] in multiset(rest);
      if rest[j] != t {
        assert rest[j] in multiset(s[1..]);
        var k :| 0 <= k < |s[1..]| && s[1..][k] == rest[j];
        assert s[k + 1] == rest[j];
      }
    }
  }

  /** The teams ordered by name (insertion sort; ties keep no particular order). */
  function SortByName(s: seq<Team>): (r: seq<Team>)
    ensures SortedByName(r)
    ensures |r| == |s|
    ensures multiset(r) == multiset(s)
  {
    if s == [] then []
    else
      assert s == s[..|s| - 1] + [s[|s| - 1]];
      InsertByName(s[|s| - 1], SortByName(s[..|s| - 1]))
  }

  // ----- product listing -----

  predicate HasAvailableProduct(products: seq<Product>, team: TeamId)
  {
    exists p :: p in products && p.available && p.team == Some(team)
  }

  /** The teams that have at least one available product, in table order. */
  function EligibleTeams(teams: seq<Team>, products: seq<Product>): (r: seq<Team>)
    ensures multiset(r) <= multiset(teams)
    ensures forall t :: t in r <==> t in teams && HasAvailableProduct(products, t.id)
  {
    Filter(teams, (t: Team) => HasAvailableProduct(products, t.id))
  }

  lemma SubMultisetMembers(a: seq<Team>, b: seq<Team>)
    requires multiset(a) <= multiset(b)
    ensures forall t :: t in a ==> t in b
  {
    forall t | t in a ensures t in b {
      assert t in multiset(a);
    }
  }

  /** The first `n` teams of a name-sorted sequence: at most the same teams, and
      every team left out sorts after every team kept. */
  lemma {:induction false} SortedPrefix(sorted: seq<Team>, n: nat)
    requires SortedByName(sorted) && n <= |sorted|
    ensures SortedByName(sorted[..n])
    ensures multiset(sorted[..n]) <= multiset(sorted)
    ensures forall t :: t in sorted && t !in sorted[..n] ==>
              n < |sorted| && forall u :: u in sorted[..n] ==> LexLe(u.name, t.name)
  {
    var r := sorted[..n];
    assert sorted == r + sorted[n..];
    forall t | t in sorted && t !in r
      ensures n < |sorted| && forall u :: u in r ==> LexLe(u.name, t.name)
    {
      var j :| 0 <= j < |sorted| && sorted[j] == t;
      assert j >= n;
      forall u | u in r ensures LexLe(u.name, t.name) {
        var i :| 0 <= i < |r| && r[i] == u;
      }
    }
  }

  /** `Team.objects.filter(products__available=True).order_by("name").distinct()[:8]`. */
  function PopularTeams(teams: seq<Team>, products: seq<Product>): (r: seq<Team>)
    ensures |r| <= PopularTeamsLimit
    ensures SortedByName(r)
    ensures multiset(r) <= multiset(teams)
  {
    var eligible := EligibleTeams(teams, products);
    var sorted := SortByName(eligible);
    var n := if |sorted| < PopularTeamsLimit then |sorted| else PopularTeamsLimit;
    SortedPrefix(sorted, n);
    assert multiset(sorted[..n]) <= multiset(eligible) <= multiset(teams);
    sorted[..n]
  }

  /** Every popular team has an available product, and an eligible team is left
      out only when eight teams that sort no later than it fill the strip. */
  lemma PopularTeamsChosen(teams: seq<Team>, products: seq<Product>)
    ensures var r := PopularTeams(teams, products);
      && (forall t :: t in r ==> HasAvailableProduct(products, t.id))
      && (forall t :: t in teams && HasAvailableProduct(products, t.id) && t !in r ==>
            |r| == PopularTeamsLimit && forall u :: u in r ==> LexLe(u.name, t.name))
  {
    var eligible := EligibleTeams(teams, products);
    var sorted := SortByName(eligible);
    var n := if |sorted| < PopularTeamsLimit then |sorted| else PopularTeamsLimit;
    var r := sorted[..n];
    assert r == PopularTeams(teams, products);
    SortedPrefix(sorted, n);
    SubMultisetMembers(r, sorted);
    SubMultisetMembers(sorted, eligible);
    SubMultisetMembers(eligible, sorted);
  }

  /** The category whose slug is `slug` (`get_object_or_404(Category, slug=...)`);
      slugs are taken to be unique, so the first match is the only one. */
  function CategoryBySlug(categories: seq<Category>, slug: string): (r: Option<Category>)
    ensures r.Some? <==> exists c :: c in categories && c.slug == slug
    ensures r.Some? ==> r.value in categories && r.value.slug == slug
  {
    var m := Filter(categories, (c: Category) => c.slug == slug);
    if m == [] then None else assert m[0] in m; Some(m[0])
  }

  /** The team whose slug is `slug` (`get_object_or_404(Team, slug=...)`). */
  function TeamBySlug(teams: seq<Team>, slug: string): (r: Option<Team>)
    ensures r.Some? <==> exists t :: t in teams && t.slug == slug
    ensures r.Some? ==> r.value in teams && r.value.slug == slug
  {
    var m := Filter(teams, (t: Team) => t.slug == slug);
    if m == [] then None else assert m[0] in m; Some(m[0])
  }

  datatype Listing = Listing(
    category: Option<Category>,
    team: Option<Team>,
    products: seq<Product>,
    popularTeams: seq<Team>)

  datatype ListResult = Listed(listing: Listing) | NotFound

  /** Which products the listing shows under the chosen category and team. */
  predicate Listable(p: Product, category: Option<Category>, team: Option<Team>)
  {
    && p.available
    && (category.Some? ==> p.category == category.value.id)
    && (team.Some? ==> p.team == Some(team.value.id))
  }

  /** The product queryset of the listing: `filter(available=True)`, then
      `filter(category=...)` and `filter(team=...)` when those were chosen. */
  function ListedProducts(products: seq<Product>, category: Option<Category>, team: Option<Team>): (r: seq<Product>)
    ensures multiset(r) <= multiset(products)
    ensures forall p :: p in r <==> p in products && Listable(p, category, team)
  {
    Filter(products, (p: Product) => Listable(p, category, team))
  }

  /** `product_list(request, category_slug, team_slug)`: the available products,
      narrowed by category and then by team when a (non-empty) slug is given;
      an unknown slug is a 404. */
  function ProductList(
    products: seq<Product>, categories: seq<Category>, teams: seq<Team>,
    categorySlug: Option<string>, teamSlug: Option<string>): (r: ListResult)
    ensures r.NotFound? <==>
              (Truthy(categorySlug) && !exists c :: c in categories && c.slug == categorySlug.value) ||
              (Truthy(teamSlug) && !exists t :: t in teams && t.slug == teamSlug.value)
    ensures r.Listed? ==>
              && (r.listing.category.Some? <==> Truthy(categorySlug))
              && (r.listing.category.Some? ==>
                    r.listing.category.value in categories && r.listing.category.value.slug == categorySlug.value)
              && (r.listing.team.Some? <==> Truthy(teamSlug))
              && (r.listing.team.Some? ==>
                    r.listing.team.value in teams && r.listing.team.value.slug == teamSlug.value)
              && r.listing.products == ListedProducts(products, r.listing.category, r.listing.team)
              && r.listing.popularTeams == PopularTeams(teams, products)
  {
    var category := if Truthy(categorySlug) then CategoryBySlug(categories, categorySlug.value) else None;
    var team := if Truthy(teamSlug) then TeamBySlug(teams, teamSlug.value) else None;
    if Truthy(categorySlug) && category.None? then NotFound
    else if Truthy(teamSlug) && team.None? then NotFound
    else Listed(Listing(category, team, ListedProducts(products, category, team), PopularTeams(teams, products)))
  }

  /** `get_object_or_404(Product, id=id, slug=slug, available=True)`. */
  function ProductDetail(products: seq<Product>, id: ProductId, slug: string): (r: Option<Product>)
    ensures r.Some? <==> exists p :: p in products && p.id == id && p.slug == slug && p.available
    ensures r.Some? ==> r.value in products && r.value.id == id && r.value.slug == slug && r.value.available
  {
    var m := Filter(products, (p: Product) => p.id == id && p.slug == slug && p.available);
    if m == [] then None else assert m[0] in m; Some(m[0])
  }
}

=== FILE: webhook.dfy ===
/** The payment provider's webhook, payment/webhook.py.

    `stripe_webhook` answers 400 to a request without a signature header or
    whose signature check fails, and otherwise dispatches on the event type:
    a completed one-time checkout session that is paid, or a succeeded
    payment intent carrying an order id in its metadata, finalizes the order
    it names; everything else is acknowledged with 200. `_finalize_order`
    marks the order paid, keeps the latest non-empty payment reference, saves
    only when something changed, and triggers the payment notification only
    when the order was unpaid on entry.

    The signature check (payload parsing and the keyed hash) is an input: its
    verdict and, when it succeeds, the parsed event. */
module Webhook {
  import opened Base
  import Money
  import Orders
  import Db
  import Payment

  const StatusOk: nat := 200
  const StatusBadRequest: nat := 400
  const StatusServerError: nat := 500

  /** The fields of `event["data"]["object"]` the handler reads; a missing
      field and a null one are both `None`. */
  datatype EventObject = EventObject(
    id: Option<string>,
    mode: Option<string>,
    paymentStatus: Option<string>,
    clientReferenceId: Option<string>,
    metadataOrderId: Option<string>,   // ["metadata"]["order_id"]
    paymentIntent: Option<string>)

  datatype Event = Event(eventType: Option<string>, data: EventObject)

  /** The verdict of `construct_event`. */
  datatype SignatureCheck = Verified(event: Event) | InvalidPayload | InvalidSignature

  /** What the handler does: answer at once, finalize an order with a
      reference and then answer 200, or fail with an uncaught error. */
  datatype Action = Respond(status: nat) | Finalize(order: OrderId, reference: Option<string>) | Crash

  /** `Order.objects.get(id=text)`: the text must read as an integer (otherwise
      the lookup raises an error nobody catches); an integer that is no
      order's id is `DoesNotExist`. */
  datatype Lookup = Found(id: OrderId) | Missing | Malformed

  function LookupOrder(orders: map<OrderId, Orders.Order>, text: string): (r: Lookup)
    ensures r.Malformed? <==> Money.ParseInt(text).None?
    ensures r.Found? <==> Money.ParseInt(text).Some? && Money.ParseInt(text).value >= 0 && Money.ParseInt(text).value in orders
    ensures r.Found? ==> r.id in orders && Money.ParseInt(text) == Some(r.id as int)
  {
    var n := Money.ParseInt(text);
    if n.None? then Malformed
    else if n.value >= 0 && n.value in orders then Found(n.value)
    else Missing
  }

  /** The answer or the order to finalize, from a lookup. */
  function Resolve(l: Lookup, reference: Option<string>): Action
  {
    match l
    case Malformed => Crash
    case Missing => Respond(StatusOk)
    case Found(id) => Finalize(id, reference)
  }

  /** The text naming the order in an event the handler acts on: the client
      reference, or failing that the metadata, of a paid one-time checkout
      session; the metadata of a succeeded payment intent; nothing for any
      other event. */
  function OrderIdText(ev: Event): (t: Option<string>)
    ensures t.Some? ==> ev.eventType == Some("checkout.session.completed") || ev.eventType == Some("payment_intent.succeeded")
  {
    if ev.eventType == Some("checkout.session.completed") then
      if ev.data.mode == Some("payment") && ev.data.paymentStatus == Some("paid") then
        Or(ev.data.clientReferenceId, ev.data.metadataOrderId)
      else None
    else if ev.eventType == Some("payment_intent.succeeded") then ev.data.metadataOrderId
    else None
  }

  /** The payment reference stored on finalizing: the payment intent, or the
      session id, of a checkout session; the id of a payment intent. */
  function PaymentReference(ev: Event): (r: Option<string>)
  {
    if ev.eventType == Some("checkout.session.completed") then Or(ev.data.paymentIntent, ev.data.id)
    else ev.data.id
  }

  /** The dispatch of `stripe_webhook`. Once the signature is verified, an
      event without an order id text is acknowledged; otherwise the text
      decides: not an integer is an uncaught error, a stored order's id
      finalizes that order, any other integer is acknowledged. */
  function Dispatch(sigHeader: Option<string>, check: SignatureCheck, orders: map<OrderId, Orders.Order>): (a: Action)
    ensures a == Respond(StatusBadRequest) <==> !Truthy(sigHeader) || !check.Verified?
    ensures a.Respond? ==> a.status == StatusOk || a.status == StatusBadRequest
    ensures a.Finalize? ==> a.order in orders
    ensures Truthy(sigHeader) && check.Verified? && !Truthy(OrderIdText(check.event)) ==> a == Respond(StatusOk)
    ensures Truthy(sigHeader) && check.Verified? && Truthy(OrderIdText(check.event)) ==>
              var n := Money.ParseInt(OrderIdText(check.event).value);
              && (a.Crash? <==> n.None?)
              && (n.Some? && n.value >= 0 && n.value in orders ==> a == Finalize(n.value, PaymentReference(check.event)))
              && (n.Some? && (n.value < 0 || n.value !in orders) ==> a == Respond(StatusOk))
  {
    if !Truthy(sigHeader) then Respond(StatusBadRequest)
    else if !check.Verified? then Respond(StatusBadRequest)
    else
      var data := check.event.data;
      if check.event.eventType == Some("checkout.session.completed") then
        if data.mode != Some("payment") then Respond(StatusOk)
        else if data.paymentStatus == Some("paid") then
          var orderId := Or(data.clientReferenceId, data.metadataOrderId);
          if !Truthy(orderId) then Respond(StatusOk)
          else Resolve(LookupOrder(orders, orderId.value), Or(data.paymentIntent, data.id))
        else Respond(StatusOk)
      else if check.event.eventType == Some("payment_intent.succeeded") then
        if Truthy(data.metadataOrderId) then Resolve(LookupOrder(orders, data.metadataOrderId.value), data.id)
        else Respond(StatusOk)
      else Respond(StatusOk)
  }

  /** Only a paid one-time checkout session and a succeeded payment intent
      can finalize anything: other modes, unpaid sessions and other event
      types are acknowledged with 200. */
  lemma IgnoredEvents(sigHeader: Option<string>, ev: Event, orders: map<OrderId, Orders.Order>)
    requires Truthy(sigHeader)
    ensures ev.eventType == Some("checkout.session.completed") && ev.data.mode != Some("payment") ==>
              Dispatch(sigHeader, Verified(ev), orders) == Respond(StatusOk)
    ensures ev.eventType == Some("checkout.session.completed") && ev.data.paymentStatus != Some("paid") ==>
              Dispatch(sigHeader, Verified(ev), orders) == Respond(StatusOk)
    ensures ev.eventType != Some("checkout.session.completed") && ev.eventType != Some("payment_intent.succeeded") ==>
              Dispatch(sigHeader, Verified(ev), orders) == Respond(StatusOk)
  {
  }

  /** A named order that does not exist is acknowledged, not an error: an
      integer id not in the table gives 200 without finalizing. */
  lemma UnknownOrderAcknowledged(sigHeader: Option<string>, ev: Event, orders: map<OrderId, Orders.Order>)
    requires Truthy(sigHeader)
    requires ev.eventType == Some("checkout.session.completed")
    requires ev.data.mode == Some("payment") && ev.data.paymentStatus == Some("paid")
    requires var oid := Or(ev.data.clientReferenceId, ev.data.metadataOrderId);
             Truthy(oid) && Money.ParseInt(oid.value).Some? && Money.ParseInt(oid.value).value !in orders
    ensures Dispatch(sigHeader, Verified(ev), orders) == Respond(StatusOk)
  {
  }

  // ----- finalizing an order -----

  datatype Finalized = Finalized(order: Orders.Order, updates: seq<string>, notify: bool)

  /** `_finalize_order(order, stripe_ref)` on the order's value: the new order,
      the fields saved (none means no save) and whether the payment
      notification fires. */
  function FinalizeValue(o: Orders.Order, reference: Option<string>): (r: Finalized)
    ensures r.order.paid
    ensures r.order.id == o.id && r.order.customer == o.customer && r.order.user == o.user
    ensures r.order.stripeId == (if Truthy(reference) then reference else o.stripeId)
    ensures r.notify <==> !o.paid
    ensures ("paid" in r.updates <==> !o.paid)
    ensures ("stripe_id" in r.updates <==> Truthy(reference) && o.stripeId != reference)
    ensures r.updates == [] <==> r.order == o
  {
    var paid := if !o.paid then o.(paid := true) else o;
    var updates := if !o.paid then ["paid"] else [];
    if Truthy(reference) && paid.stripeId != reference then
      Finalized(paid.(stripeId := reference), updates + ["stripe_id"], !o.paid)
    else
      Finalized(paid, updates, !o.paid)
  }

  /** Finalizing again with the same reference changes nothing, saves nothing
      and notifies nobody. */
  lemma FinalizeIdempotent(o: Orders.Order, reference: Option<string>)
    ensures var once := FinalizeValue(o, reference).order;
            FinalizeValue(once, reference) == Finalized(once, [], false)
  {
  }

  /** Finalizing once per reference in `refs`, in order, from order `o`. */
  function FinalizeAll(o: Orders.Order, refs: seq<Option<string>>): (Orders.Order, nat)
    decreases |refs|
  {
    if refs == [] then (o, 0)
    else
      var r := FinalizeValue(o, refs[0]);
      var (last, sent) := FinalizeAll(r.order, refs[1..]);
      (last, sent + if r.notify then 1 else 0)
  }

  /** However many times the webhook fires for an order, and with whatever
      references, the payment notification goes out once if the order was
      unpaid and never if it was paid; afterwards the order is paid. */
  lemma {:induction false} NotifiedAtMostOnce(o: Orders.Order, refs: seq<Option<string>>)
    ensures FinalizeAll(o, refs).1 == (if !o.paid && refs != [] then 1 else 0)
    ensures FinalizeAll(o, refs).0.paid == (o.paid || refs != [])
    ensures FinalizeAll(o, refs).0.id == o.id
    decreases |refs|
  {
    if refs != [] {
      NotifiedAtMostOnce(FinalizeValue(o, refs[0]).order, refs[1..]);
    }
  }

  /** `_finalize_order` on the stored order. Returns the fields saved. */
  method FinalizeOrder(store: Db.Store, id: OrderId, reference: Option<string>) returns (updates: seq<string>)
    requires store.Valid() && id in store.orders
    modifies store
    ensures store.Valid()
    ensures var r := FinalizeValue(old(store.orders[id]), reference);
            && updates == r.updates
            && store.orders == old(store.orders)[id := r.order]
            && store.notices == old(store.notices) + (if r.notify then [Db.PaymentCompleted(id)] else [])
    ensures store.items == old(store.items) && store.nextId == old(store.nextId)
  {
    var order := store.orders[id];
    updates := [];
    var alreadyPaid := order.paid;
    if !order.paid {
      order := order.(paid := true);
      updates := updates + ["paid"];
    }
    if Truthy(reference) && order.stripeId != reference {
      order := order.(stripeId := reference);
      updates := updates + ["stripe_id"];
    }
    if updates != [] {
      store.SaveOrder(order);
    }
    if !alreadyPaid {
      store.Notify(Db.PaymentCompleted(id));
    }
  }

  /** `stripe_webhook(request)`: the status it answers with, the store
      changed only by finalizing the dispatched order. */
  method StripeWebhook(store: Db.Store, sigHeader: Option<string>, check: SignatureCheck) returns (status: nat)
    requires store.Valid()
    modifies store
    ensures store.Valid()
    ensures store.items == old(store.items) && store.nextId == old(store.nextId)
    ensures match Dispatch(sigHeader, check, old(store.orders))
            case Respond(s) =>
              status == s && store.orders == old(store.orders) && store.notices == old(store.notices)
            case Crash =>
              status == StatusServerError && store.orders == old(store.orders) && store.notices == old(store.notices)
            case Finalize(id, reference) =>
              var r := FinalizeValue(old(store.orders[id]), reference);
              && status == StatusOk
              && store.orders == old(store.orders)[id := r.order]
              && store.notices == old(store.notices) + (if r.notify then [Db.PaymentCompleted(id)] else [])
  {
    var action := Dispatch(sigHeader, check, store.orders);
    match action
    case Respond(s) =>
      status := s;
    case Crash =>
      status := StatusServerError;
    case Finalize(id, reference) =>
      var _ := FinalizeOrder(store, id, reference);
      status := StatusOk;
  }

  /** payment/tests/test_webhook_invalid_signature.py: no signature header is a
      400 whatever the body, and nothing changes. */
  lemma MissingSignatureRejected(check: SignatureCheck, orders: map<OrderId, Orders.Order>)
    ensures Dispatch(None, check, orders) == Respond(StatusBadRequest)
    ensures Dispatch(Some(""), check, orders) == Respond(StatusBadRequest)
  {
  }

  /** The payment step and the webhook agree: a paid checkout session that
      echoes the client reference of the request built for a stored order
      finalizes that very order, with the payment intent as reference when
      there is one and the session id otherwise. */
  lemma CheckoutReferenceRoundTrip(
    sigHeader: Option<string>, orders: map<OrderId, Orders.Order>, id: OrderId,
    items: seq<Orders.OrderItem>, currency: string,
    sessionId: Option<string>, paymentIntent: Option<string>, metadataOrderId: Option<string>)
    requires Truthy(sigHeader) && id in orders && orders[id].id == id
    ensures var req := Payment.RequestFor(orders[id], items, currency);
            var data := EventObject(sessionId, Some("payment"), Some("paid"), Some(req.clientReferenceId), metadataOrderId, paymentIntent);
            Dispatch(sigHeader, Verified(Event(Some("checkout.session.completed"), data)), orders)
              == Finalize(id, Or(paymentIntent, sessionId))
  {
    Payment.RequestIdentifiesOrder(orders[id], items, currency);
  }

  /** The same for the payment-intent path: a succeeded payment intent whose
      metadata carries the order id of the request built for a stored order
      finalizes that very order, with the intent's id as reference. */
  lemma IntentReferenceRoundTrip(
    sigHeader: Option<string>, orders: map<OrderId, Orders.Order>, id: OrderId,
    items: seq<Orders.OrderItem>, currency: string, intentId: Option<string>)
    requires Truthy(sigHeader) && id in orders && orders[id].id == id
    ensures var req := Payment.RequestFor(orders[id], items, currency);
            var data := EventObject(intentId, None, None, None, Some(req.metadataOrderId), None);
            Dispatch(sigHeader, Verified(Event(Some("payment_intent.succeeded"), data)), orders)
              == Finalize(id, intentId)
  {
    Payment.RequestIdentifiesOrder(orders[id], items, currency);
  }
}
